=== FILE: README.md ===
# FF14 gathering-node timer — a Dafny model

This project models the timing core of a Discord bot for Final Fantasy XIV gatherers.
Gathering nodes spawn at a fixed hour of the game's virtual ("Eorzea") clock. That
clock runs 3600/175 = 144/7 times faster than real time, so a virtual minute lasts
35/12 real seconds and a virtual day 4200 real seconds.

The bot tracks the nodes in two forms:

- **The cog** (`cogs/tracker_cog.py`).
  - Per channel, a `TrackerInstance` builds the list of timed nodes from the CSV rows, narrowed to the author's watchlist unless it tracks all of them or the watchlist is empty.
  - Once per second it advances the nodes whose spawn has passed and finds the soonest group.
  - It sends personal pings to users whose lead time falls in the current one-second window. It pings each user at most once per soonest time.
  - It refreshes its display (an embed) by a three-tier cadence rule.
  - A `TrackerManager` keeps the per-user watchlist and ping tables, the commands that change them, the files they are saved to, and a registry of running trackers, one per channel as long as commands do not overlap (see "## Left out").
- **The stand-alone script** (`ff14_alarm.py`). It keeps one global tracker state, started and stopped by commands. Its loop advances the nodes and refreshes one display by the same cadence rule without the epoch case, with no pings and no field cap.

Modules:

- `Wrappers`: `Option`.
- `Clock`: the virtual clock, the next-occurrence computation, the displayed Eorzea time and the minutes/seconds format.
- `Text`: the Python string operations used.
  - `str.strip` with Python's whitespace set.
  - `str.split` and `str.replace`.
  - Digit strings.
  - String order and `sorted(set(...))`.
- `Nodes`: CSV rows, node construction, the tick's advance, the soonest time and group.
- `Cadence`: the refresh rule, with budgets over runs of ticks.
- `Pings`: the ping window, due users, messages, and the once-per-soonest-time guarantee.
- `Display`: grouping by location, the field cap, colour, title and embed.
- `Watchlists`: the ping and watchlist tables and the pure meaning of add, remove and copy.
- `Tracker`: the class `TrackerInstance`.
- `Manager`: the class `TrackerManager`.
- `Alarm`: the script's state as the class `AlarmState`.

Python state that changes in place is kept as class fields:

- The node list, the pinged set, the last refresh time, the tables and the registry.
- Loops that update variables are methods with loop invariants.
- Each such method is proved equal to a specification function, and the properties are proved about those functions.

Timestamps are exact `real`s. The floors are written out with `.Floor` (the source's `//` on floats) and `int()` truncation is written as `Trunc`.

## Behaviour worth knowing

- **Next occurrence repeats.** Called again from the instant it returned, the next-occurrence computation returns that same instant, not one virtual day later (`Clock.NextSpawnRepeat`). At that instant the current virtual minute already equals the target, so the minute difference is 0.
- **Next occurrence is not monotonic.** A later input can give an earlier result (`Clock.NextSpawnNotMonotonic`). The result keeps the input's offset inside its virtual minute (`Clock.NextSpawnKeepsOffset`).
- **Pinged only after a send.** A user is marked as pinged only when the send went through (cogs/tracker_cog.py:141-144, `Pings.PingedAfter`). A failed send leaves the user unmarked, so a later tick in the same window may try again.
- **Tables are live, until they are reloaded.** A running tracker reads the manager's ping and watchlist tables as they stand on each tick, not a copy taken at start, because Python shares the dictionaries by reference (cogs/tracker_cog.py:35, 380-381). This holds only until `load_data` runs again from `on_ready` (cogs/tracker_cog.py:405-406). That call binds the manager's tables to new dictionaries (cogs/tracker_cog.py:222-235), and a tracker already running keeps reading the ones it was given. `Tracker.TrackerInstance.Tick` takes the tables as parameters, so both cases are covered: a caller passes either the manager's current tables or the ones the tracker was started with.

## Model

| member | source | states |
|---|---|---|
| Clock.MinuteOfDay | cogs/tracker_cog.py:151-152 | The virtual minute of the day is always in [0, 1440). |
| Clock.NextSpawn | cogs/tracker_cog.py:150-156 | For a valid hour, the result is in [t, t + 4200), lands on virtual minute `hour*60`, and equals t exactly when t is already in that minute. |
| Clock.NextOccurrence | cogs/tracker_cog.py:148-156 | None exactly when the hour is outside [0,24). Otherwise a time in [t, t + 4200) on virtual minute `hour*60`. The script's copy at ff14_alarm.py:72-80 is the same function. |
| Clock.NextSpawnIsFirst | cogs/tracker_cog.py:150-156 | No instant between t and the result lies in an earlier occurrence of the target minute: the result is the first one. |
| Clock.NextSpawnKeepsOffset | cogs/tracker_cog.py:153-156 | The result sits as far into its virtual minute as t did into its own, an offset in [0, 35/12). |
| Clock.NextSpawnRepeat | cogs/tracker_cog.py:148-156 | Recomputing from the returned instant returns the same instant. |
| Clock.NextSpawnAfterMinuteEnds | cogs/tracker_cog.py:152-155 | One virtual minute after the target minute, the wait is a full virtual day minus one virtual minute. |
| Clock.NextSpawnNotMonotonic | cogs/tracker_cog.py:150-156 | From t = 174 the result for hour 1 is later than from t = 175. |
| Clock.MinuteIndexMonotone | cogs/tracker_cog.py:151-152 | The virtual minute index never decreases with real time. |
| Clock.EorzeaTime | cogs/tracker_cog.py:189-196 | Hour in [0,24) and minute in [0,60), and together they are the truncated virtual minute of the day. The script's copy is at ff14_alarm.py:62-69. |
| Clock.EorzeaTimeAgreesWithScheduler | cogs/tracker_cog.py:189-196 | For non-negative time, the displayed clock shows the same minute of day that the scheduler computes with a floor. |
| Clock.ClockShowsHourAtSpawn | cogs/tracker_cog.py:189-196 | At a computed spawn instant the displayed clock reads `hour:00`. |
| Clock.FormatTimeDelta | cogs/tracker_cog.py:198-202 | Minutes non-negative, seconds in [0,60), and together they are the whole seconds of the input clamped at 0. The script's copy is at ff14_alarm.py:55-59. |
| Clock.FormatWholeSeconds | cogs/tracker_cog.py:198-202 | A whole number of seconds n is shown as (n / 60, n % 60). |
| Nodes.Schedule | cogs/tracker_cog.py:68-72 | A row yields a node only when its stripped start hour is all digits and below 24. The node carries the row, that hour and the next occurrence from t. |
| Nodes.ScheduleExact | cogs/tracker_cog.py:68-72 | For t > 0, a row yields a node exactly when its start hour is valid. |
| Nodes.ScheduleDropsZeroTimestamp | cogs/tracker_cog.py:72 | At t = 0 a valid hour-0 row is dropped, because `if next_ts:` rejects 0.0. |
| Nodes.TimedNodesExact | cogs/tracker_cog.py:64-72 | For t > 0 the timed nodes come from exactly the rows with a valid start hour, in row order. |
| Nodes.TimedNodesScheduled | cogs/tracker_cog.py:64-72 | Every timed node carries its row's hour and the next occurrence of that hour from t. |
| Nodes.CollectTimed | cogs/tracker_cog.py:66-72 | The construction loop yields exactly the timed nodes. The script's loop at ff14_alarm.py:192-199 is the same. |
| Nodes.Watched | cogs/tracker_cog.py:76 | Keeps exactly the nodes whose name is on the watchlist. Order and multiplicity are fixed by `Nodes.WatchedAppend`. |
| Nodes.WatchedAppend | cogs/tracker_cog.py:76 | The filter works piecewise on a concatenation, and keeps a single node exactly when its name is listed. So it keeps the list's order and repeated nodes. |
| Nodes.Monitored | cogs/tracker_cog.py:73-76 | A node is monitored exactly when it is timed and either all are tracked, the watchlist is empty, or its name is listed. Order and multiplicity are fixed by `Nodes.MonitoredAppend`. |
| Nodes.MonitoredAppend | cogs/tracker_cog.py:73-76 | The monitored list works piecewise on a concatenation, and keeps a single node exactly when all are tracked, the watchlist is empty or its name is listed. |
| Nodes.Refresh | cogs/tracker_cog.py:98-99 | One node after a tick keeps its row and hour and is never earlier than now or than before. A node not yet due is unchanged, and an elapsed one lands on its hour's minute within a virtual day of now. |
| Nodes.Advance | cogs/tracker_cog.py:98-99 | Each node keeps its row and hour. Afterwards every time is at or after now and never earlier than before. Nodes not yet due are unchanged. Recomputed nodes land on their hour's minute within a day of now. |
| Nodes.AdvanceAll | cogs/tracker_cog.py:98-99 | The in-place update loop yields exactly `Advance`. The script's loop is at ff14_alarm.py:102-104. |
| Nodes.AdvanceIdempotent | cogs/tracker_cog.py:98-99 | A second update at the same `now` changes nothing. |
| Nodes.TimedNodesShareTies | cogs/tracker_cog.py:64-72 | Freshly built nodes with the same hour have the same time. |
| Nodes.AdvanceKeepsTies | cogs/tracker_cog.py:98-99 | The update keeps nodes of the same hour at the same time. |
| Nodes.MinTs | cogs/tracker_cog.py:100 | The soonest time is a lower bound of all node times and is attained by some node. |
| Nodes.Upcoming | cogs/tracker_cog.py:102 | The upcoming group is exactly the nodes at the given time. Order and multiplicity are fixed by `Nodes.UpcomingAppend`. |
| Nodes.UpcomingAppend | cogs/tracker_cog.py:102 | The soonest group works piecewise on a concatenation, and keeps a single node exactly when it is due at the given time. So the headline node, the cap's survivors and the names' order follow the node list. |
| Nodes.SoonestAfterTick | cogs/tracker_cog.py:97-103 | After the update the soonest time is not in the past. Before the soonest time nothing changes. Once the soonest time is strictly passed it changes, which clears the pinged set. |
| Nodes.SoonestGroupNonEmpty | cogs/tracker_cog.py:100-102 | A non-empty node list has a non-empty soonest group. |
| Nodes.TiedNodesGroupTogether | cogs/tracker_cog.py:102 | With ties shared, nodes of the same hour are both in the soonest group or both out. |
| Cadence.ShouldRefresh | cogs/tracker_cog.py:106-114 | Always refreshes on a changed soonest time, within 10 s, or 60 s after the last refresh. Otherwise it never refreshes sooner than 5 s after the last one, or sooner than 60 s when more than 30 s remain. |
| Cadence.ShouldRefreshAlarm | ff14_alarm.py:114-121 | The same bounds without the epoch case: always within 10 s or 60 s after the last refresh, never sooner than 5 s, and never sooner than 60 s when more than 30 s remain. |
| Cadence.RefreshByTier | cogs/tracker_cog.py:106-114 | Refresh exactly when the soonest time changed or the tier's spacing has elapsed: none when 10 s or less remain, 5 s within 30 s, 60 s otherwise. |
| Cadence.RefreshMonotoneInElapsed | cogs/tracker_cog.py:106-114 | A later tick with the same inputs would also refresh. |
| Cadence.AlarmIsCogWithoutEpoch | ff14_alarm.py:114-121 | The script's rule is the cog's rule with the soonest time unchanged. |
| Cadence.AlarmFirstTickRefreshes | ff14_alarm.py:95-121 | Starting from `last_update_time = 0`, the first tick at any time of 60 s or later refreshes. |
| Cadence.FarRefreshBudget | cogs/tracker_cog.py:106-116 | More than 30 s from a spawn and with the soonest time unchanged, refreshes over a run of ticks are at least 60 s apart on average. |
| Cadence.NonUrgentRefreshBudget | cogs/tracker_cog.py:106-116 | Outside the urgent tier, refreshes are at least 5 s apart on average. |
| Cadence.UrgentRefreshesEveryTick | cogs/tracker_cog.py:109-110 | Within 10 s of a spawn every tick refreshes. |
| Pings.InPingWindow | cogs/tracker_cog.py:134 | The remaining time is in a lead's window exactly when the lead is the remaining time rounded up, so at most one lead matches a given remaining time. |
| Pings.PingDue | cogs/tracker_cog.py:134-140 | A due user has a positive lead equal to the remaining time rounded up, has not been pinged yet, and has a non-empty watchlist. The soonest group is non-empty. |
| Pings.PingDueHasWatchedNode | cogs/tracker_cog.py:136-140 | A due user has some soonest node whose name is on their watchlist. |
| Pings.ItemsToPing | cogs/tracker_cog.py:138-139 | The ping items are exactly the upcoming names on the user's watchlist. |
| Pings.MessageFor | cogs/tracker_cog.py:142-143 | A ping names its user and announces that user's lead time. |
| Pings.PingsForSpec | cogs/tracker_cog.py:131-146 | Every due user gets a message. Each message goes to a due user who is not yet pinged, with a positive lead, and names only upcoming items on that user's list, at least one. |
| Pings.WindowHit | cogs/tracker_cog.py:134 | With the remaining time falling by one second per tick, exactly one tick lands in the window (lead - 1, lead]. |
| Pings.LateTickMissesWindow | cogs/tracker_cog.py:134 | Remaining times 60.5 and 59.0 both miss the 60 s window: a tick 0.5 s late skips the ping. |
| Pings.NonPositiveLeadNeverDue | cogs/tracker_cog.py:134-135 | A zero or negative lead is never due. |
| Pings.PingedAfter | cogs/tracker_cog.py:141-144 | The pinged set only grows, and only with users who were due on this tick and whose send went through. |
| Pings.AtMostOncePerEpoch | cogs/tracker_cog.py:131-146 | While the soonest time stays the same, a user receives at most one ping, and none once pinged. |
| Display.AddToGroupsLocs | cogs/tracker_cog.py:117-121 | Appending to a group keeps the keys and their insertion order, adding a new key at the end. |
| Display.AddToGroupsNames | cogs/tracker_cog.py:117-121 | On distinct keys, the name goes to the group at its location (a new one at the end when none) and to no other. |
| Display.Grouped | cogs/tracker_cog.py:117-121 | There are never more groups than nodes, and there are no groups exactly when there are no nodes. |
| Display.GroupedLocs | cogs/tracker_cog.py:117-121 | The groups have distinct keys, exactly the locations of the upcoming nodes. |
| Display.GroupedNames | cogs/tracker_cog.py:117-121 | Each group holds exactly the names at its location, in node order. |
| Display.GroupEvents | cogs/tracker_cog.py:117-121 | The grouping loop yields exactly `Grouped`. |
| Display.CapGroups | cogs/tracker_cog.py:174-183 | The shown groups are a prefix. With more than 24 groups exactly 23 are shown and the omitted count is the number of groups minus 23. Shown plus omitted is all of them, the fields including the headline never exceed 25, and up to 24 groups are all shown. |
| Display.EmbedColour | cogs/tracker_cog.py:185-186 | An embed with upcoming nodes is never grey. |
| Display.ColourFollowsTier | cogs/tracker_cog.py:185-186 | Red exactly in the urgent tier, orange in the medium tier, green otherwise. |
| Display.Title | cogs/tracker_cog.py:159-163 | The title says "tracking all" exactly for track-all, and "tracking the list" exactly when not track-all with a non-empty watchlist. |
| Display.BuildEmbed | cogs/tracker_cog.py:158-187 | At most 25 fields. Grey with no fields exactly when nothing is upcoming. Otherwise the headline has the first upcoming node's start hour and the remaining time as minutes and seconds, the colour is the proximity colour, and the fields and omitted count are the capped groups. |
| Display.SoonestEmbed | cogs/tracker_cog.py:78-88 | The first display of a non-empty list is headed by the first node of the non-empty soonest group, with the time to the soonest time and its proximity colour, and shows the capped location groups of that soonest group. |
| Display.SoonestEmbedFields | cogs/tracker_cog.py:78-88 | Its fields have distinct locations, all among the soonest nodes' locations. Each lists exactly the names of the soonest nodes at its location, in node order. When nothing is omitted, every location is shown. |
| Display.AlarmEmbed | ff14_alarm.py:134-152 | The script shows every group with no cap, in one field each after a headline with the first upcoming node's start hour and the remaining time, with the same colour rule. |
| Display.CapMatchesScriptWhenSmall | cogs/tracker_cog.py:174-183 | The cog and the script agree on headline and colour, and on the fields exactly when there are at most 24 locations. |
| Text.StripCharsSlice | cogs/tracker_cog.py:275 | `strip` keeps a middle slice. Everything it drops is in the set, and the result neither starts nor ends with a character of the set. |
| Text.JoinSplit | cogs/tracker_cog.py:266 | Joining the pieces of a split gives back the text. |
| Text.SplitJoin | cogs/tracker_cog.py:266 | Splitting a join of separator-free pieces gives back the pieces. |
| Text.SplitPiecesFree | cogs/tracker_cog.py:266 | No piece of a split contains the separator. |
| Text.SortedSet | cogs/tracker_cog.py:348 | `sorted(set(s))` is strictly increasing and holds exactly the elements of s. |
| Text.SortedUnique | cogs/tracker_cog.py:348 | Two strictly increasing lists with the same elements are equal. |
| Watchlists.PingOf | cogs/tracker_cog.py:368-369 | The stored lead of a user with an entry, and -1 exactly when there is none (or -1 is stored). |
| Watchlists.SetThenGet | cogs/tracker_cog.py:356-369 | Getting after setting returns the value set, -1 included, and no other user's value changes. |
| Watchlists.CleanItem | cogs/tracker_cog.py:275 | A cleaned item is no longer than the raw one and neither starts nor ends with whitespace. |
| Watchlists.CleanAllAt | cogs/tracker_cog.py:274-275 | Each item is cleaned on its own. |
| Watchlists.AddAll | cogs/tracker_cog.py:274-287 | The list only grows at its end, by exactly the added names. Each item is reported at most once: added, already present or not found. Which report an item gets is stated in `Watchlists.AddComplete`. |
| Watchlists.AddAppendsNewKnown | cogs/tracker_cog.py:274-287 | The list grows by exactly the added names, at its end. Each added name is known, was not listed and was asked for. None is added twice, and a duplicate-free list stays so. |
| Watchlists.AddComplete | cogs/tracker_cog.py:274-287 | Afterwards every requested known or already-listed name is on the list, and every requested unknown unlisted name is reported not found. Every requested name that was already listed is reported as existing. |
| Watchlists.AddStable | cogs/tracker_cog.py:274-290 | When every requested name is listed or unknown, nothing is added and the list is unchanged, so no save happens. |
| Watchlists.AddTwice | cogs/tracker_cog.py:274-287 | Repeating the same add changes nothing and adds nothing. Every requested known or already-listed name is reported as existing the second time. |
| Watchlists.RemoveFirstOne | cogs/tracker_cog.py:319 | `list.remove` takes away exactly one occurrence. |
| Watchlists.RemoveAll | cogs/tracker_cog.py:315-322 | The list shrinks by exactly one entry per reported removal. Each item is reported at most once: removed or not found. Which names are reported not found is stated in `Watchlists.RemoveReportsMissing`. |
| Watchlists.RemoveReportsMissing | cogs/tracker_cog.py:315-322 | Every requested non-empty name that was not on the list is reported as not found. |
| Watchlists.RemoveTakesReported | cogs/tracker_cog.py:315-322 | The names left plus the names reported removed are, as a multiset, the original list. |
| Watchlists.RemoveFromTail | cogs/tracker_cog.py:315-322 | Removing names absent from a prefix removes each from the duplicate-free rest and leaves the prefix alone. |
| Watchlists.AddThenRemove | cogs/tracker_cog.py:261-329 | Removing the names just asked for, none of which were listed before, restores the original list. |
| Watchlists.MergeLists | cogs/tracker_cog.py:347-348 | The merged list is strictly sorted, duplicate-free, and holds exactly the names of both lists. |
| Watchlists.MergeIsTheSortedUnion | cogs/tracker_cog.py:347-348 | The merge is THE sorted list of the union. |
| Tracker.TickDisplay | cogs/tracker_cog.py:106-122 | A display is produced exactly when the cadence rule says so, with the tracker's title and at most 25 fields. With soonest nodes, its headline has the first node's start hour and the remaining time, its colour is the proximity colour, and its fields are the capped location groups. |
| Tracker.TrackerInstance.constructor | cogs/tracker_cog.py:33-38 | A new tracker has no nodes, nobody pinged, no loop and no message. |
| Tracker.TrackerInstance.Prepare | cogs/tracker_cog.py:64-76 | The node list becomes the monitored nodes at t. |
| Tracker.TrackerInstance.FirstEmbed | cogs/tracker_cog.py:78-88 | The first display is the embed of the soonest group. |
| Tracker.TrackerInstance.Start | cogs/tracker_cog.py:40-54 | Nothing to track (a message that depends on track-all) when the list is empty. A failed send leaves the loop off. Otherwise it sends the first display and runs the loop. |
| Tracker.TrackerInstance.BeginLoop | cogs/tracker_cog.py:92 | The last refresh time starts at the wall clock reading. |
| Tracker.TrackerInstance.PingUser | cogs/tracker_cog.py:132-146 | A user gets a message exactly when due, and is marked only if the send went through. |
| Tracker.TrackerInstance.CheckAndSendPings | cogs/tracker_cog.py:131-146 | The loop over the ping table sends exactly `PingsFor` and leaves the pinged set as `PingedAfter`. |
| Tracker.TrackerInstance.PingPhase | cogs/tracker_cog.py:103-105 | The pinged set is cleared exactly when the soonest time changed, then the pings run. |
| Tracker.TrackerInstance.RefreshDisplay | cogs/tracker_cog.py:106-122 | The display is the cadence-gated embed, and the last refresh time moves to now exactly when one is shown. |
| Tracker.TrackerInstance.Tick | cogs/tracker_cog.py:94-122 | An empty list idles. Otherwise the nodes advance and the soonest group, remaining time and epoch change are taken after the update. The pinged set is cleared on a change and then updated by the pings, and the display and last refresh time follow the cadence rule. |
| Tracker.TrackerInstance.Stop | cogs/tracker_cog.py:56-62 | Afterwards there is no loop and no message. |
| Manager.ItemNamesExact | cogs/tracker_cog.py:241-245 | A name is known exactly when it is non-empty and some row carries it. |
| Manager.TrackerManager.constructor | cogs/tracker_cog.py:206-216 | All tables and the registry start empty. |
| Manager.TrackerManager.LoadData | cogs/tracker_cog.py:218-248 | A missing or invalid JSON file gives an empty table. The item names are rebuilt from the rows only when there are rows. |
| Manager.AddItems | cogs/tracker_cog.py:274-287 | The add loop over the cleaned items yields exactly `AddAll`. |
| Manager.RemoveItems | cogs/tracker_cog.py:315-322 | The remove loop yields exactly `RemoveAll`. |
| Manager.TrackerManager.AddToWatchlist | cogs/tracker_cog.py:261-300 | The items are the cleaned pieces of the argument split on either comma. The new list and the three reports are `AddAll` of the old list. The user's entry always exists afterwards, and the file is saved exactly when something was added. |
| Manager.TrackerManager.RemoveFromWatchlist | cogs/tracker_cog.py:310-329 | A user without an entry gets "list empty" and nothing changes. Otherwise the result is `RemoveAll`, an emptied entry is deleted, and the file is saved exactly when something was removed. |
| Manager.RemoveNothing | cogs/tracker_cog.py:323-325 | When nothing was removed the list is unchanged, which is why no save is needed. |
| Manager.TrackerManager.GetWatchlist | cogs/tracker_cog.py:331-332 | The user's stored list, or the empty list when there is no entry. |
| Manager.TrackerManager.ClearWatchlist | cogs/tracker_cog.py:334-338 | The entry is gone afterwards, so the user's watchlist reads empty, with a save only when there was one. |
| Manager.TrackerManager.CopyWatchlist | cogs/tracker_cog.py:340-354 | An empty source changes nothing. Otherwise the destination becomes the sorted union, and the count is how much longer it got, saved and reported only when positive. |
| Manager.CopyCountsNewNames | cogs/tracker_cog.py:346-349 | On a duplicate-free destination the count is the number of source names it did not hold. |
| Manager.CopyCountNegativeWithDuplicates | cogs/tracker_cog.py:346-354 | A destination holding a name twice gives a count of -1: the list changed but nothing is reported or saved. |
| Manager.TrackerManager.SetPing | cogs/tracker_cog.py:356-366 | -1 deletes the entry, reporting and saving only if there was one. Any other value is stored and saved. Reading the user's lead afterwards gives the value set. |
| Manager.TrackerManager.GetPing | cogs/tracker_cog.py:368-369 | The user's stored lead, and -1 exactly when there is no entry (or -1 is stored). |
| Manager.Launch | cogs/tracker_cog.py:379-382 | A new tracker over the author's list, started. |
| Manager.TrackerManager.StartTrackerForChannel | cogs/tracker_cog.py:371-385 | Refused when the channel has a tracker or no rows are loaded. Otherwise a fresh tracker is started over the author's watchlist and registered exactly when its start succeeded. |
| Manager.TrackerManager.StopTrackerForChannel | cogs/tracker_cog.py:387-395 | Stops and unregisters the channel's tracker exactly when there is one, leaving it without loop or message. Its nodes, pinged set and last refresh time keep their values. |
| Alarm.AlarmDisplay | ff14_alarm.py:113-152 | A display exactly when the script's cadence rule says so. It has a plain title, a headline with the first upcoming node's start hour and the remaining time, every location group of the soonest nodes uncapped, and the proximity colour. |
| Alarm.AlarmState.constructor | ff14_alarm.py:43-47 | No task, no channel, no message, no nodes. |
| Alarm.AlarmState.StartCommand | ff14_alarm.py:177-206 | Refused while running. Otherwise the channel is taken and the message forgotten first. No CSV rows stops there. The nodes are then built, and an empty list does not launch. Otherwise the loop runs from a last refresh time of 0. A start that does not launch leaves the last refresh time alone. |
| Alarm.AlarmState.StopCommand | ff14_alarm.py:210-225 | Refused when not running. Otherwise the task stops and the message and channel are forgotten. |
| Alarm.AlarmState.RefreshDisplay | ff14_alarm.py:123-161 | The display follows `AlarmDisplay`. A refresh moves the last refresh time to now and leaves a message in place. |
| Alarm.AlarmState.Tick | ff14_alarm.py:97-161 | The nodes advance first and an empty list idles. Otherwise the soonest group is non-empty and the display step runs on it. |
| Alarm.FirstTickShows | ff14_alarm.py:95-152 | The script's first tick at a real clock reading always shows a display. |

## Left out

- **Discord I/O.**
  - Sending, editing and deleting messages, the text of every message and embed field, and the `NotFound`/`HTTPException` fallback are not modelled.
  - A send's success is a parameter (`sendOk`), and a message's existence is a flag.
  - The cog's edit-or-resend (cogs/tracker_cog.py:123-126) and the script's send-edit-or-resend (ff14_alarm.py:154-161) both leave a message in place. The model keeps only that.
- **asyncio.** Task creation and cancellation, `wait_until_ready`, the self-correcting sleep and concurrent ticks are left out. A tick is a method called with the instant `now`.
- **Interleaving at `await`.** Each command and each tick is modelled as one atomic step. In the bot, discord.py runs every command as its own task, so commands and the tracker loop interleave at every `await`. The model does not capture these interleavings:
  - Two `start` commands in one channel can both pass the registry check (cogs/tracker_cog.py:373) while the first is suspended in the tracker's start (line 382). Both then register (line 383), and the first tracker keeps running with no `stop` able to reach it. So "one tracker per channel" holds only for commands that do not overlap.
  - Two `stop` commands can both pass the check at line 389 while the first awaits the stop (line 391). The second deletion at line 392 then raises `KeyError`.
  - A ping command can add or delete a ping-table entry while the ping check awaits a send (line 143). That changes the dictionary during the `.items()` loop (line 132). The resulting `RuntimeError` is raised outside the `try` at lines 141-146, so it ends that tracker's loop.
- **Clocks.** `time.time()`, `datetime.now()` and the manual offset are passed in as parameters. `Tracker.TrackerInstance.BeginLoop` takes the wall clock without the offset, as the source does.
- **Floating point.** `EORZEA_MULTIPLIER` and the float arithmetic are exact rationals. The exact-equality grouping at cogs/tracker_cog.py:102 is exact equality of reals.
- **Files.**
  - CSV and JSON reading is left out: the manager receives the parsed tables (`None` for a missing or invalid file) and the rows.
  - A save is the file field becoming the table. The temp-file-and-rename discipline and a failing save are left out.
- **Ids.** User ids are `nat`. The source's `str(user_id)` keys and `int(user_id_str)` conversions are a bijection on the ids it produces.
- **Command parsing.** The `'off'` string is the same as -1, and the command's refusal of other non-positive values is left out, as are the ping-command parsing and its messages.
- **`showcurrent`.** It calls a manager method that does not exist and is not modelled.
- **`URGENT_REFRESH_INTERVAL`.** It is never read, so it is not modelled.
- **Missing CSV columns.** `.get(..., 'N/A')` defaults are left out, and so is the `KeyError` on a row without `材料名CN` in the ping check. Rows always have the four columns.
- **Digits.** Only ASCII digits count as digits. Python's `isdigit` also accepts other Unicode digits.
- **Cleaned items.** `Manager.TrackerManager.RemoveFromWatchlist` also computes the cleaned items for a user without an entry, which the source never does. The result is the same.
- **Tracker.TrackerInstance: the watchlist.** The constructor receives the author's watchlist as a value, and the title and the node filter read it as it was when the tracker was created. The source keeps a reference to the live list, so a later removal that empties it changes the title of a running tracker.
- **Alarm.AlarmState: the running flag.** `running` stands for "the background task exists and is not done". The task ending by itself, when the bot closes, is not modelled.
- **main_bot.py.** Configuration and extension loading are not part of this model.

=== FILE: alarm.dfy ===
/**
 * The stand-alone script: one global tracker state, started and stopped by commands,
 * whose loop advances the nodes and refreshes one display by the cadence rule without
 * the epoch case, personal pings or the field cap.
 */
module Alarm {
  import opened Wrappers
  import opened Clock
  import opened Nodes
  import opened Cadence
  import opened Display

  /** What `start_command` reports. */
  datatype StartReport = AlreadyRunning | NoCsv | NoValidNodes | Launched

  /** What `stop_command` reports. */
  datatype StopReport = NotRunning | Stopped

  /** One loop iteration: nothing on an empty node list, otherwise the display it shows,
      if it refreshes. */
  datatype AlarmTick = Idle | Ticked(display: Option<Embed>)

  /** The display of the script's loop for the soonest nodes `upcoming`, `remaining`
      seconds away, if the cadence rule asks for one: every location group, no cap. */
  function AlarmDisplay(upcoming: seq<Occurrence>, remaining: real, now: real, last: real): (d: Option<Embed>)
    requires upcoming != []
    ensures d.Some? <==> ShouldRefreshAlarm(remaining, now, last)
    ensures d.Some? ==>
              && d.value.title == Plain && d.value.headline.Some? && d.value.omitted == 0
              && d.value.headline.value.startEt == upcoming[0].row.startEt
              && (d.value.headline.value.minutes, d.value.headline.value.seconds) == FormatTimeDelta(remaining)
              && d.value.colour == EmbedColour(remaining)
              && d.value.fields == Grouped(upcoming)
              && FieldCount(d.value) == 1 + |Grouped(upcoming)|
  {
    if ShouldRefreshAlarm(remaining, now, last) then Some(AlarmEmbed(upcoming, Grouped(upcoming), remaining)) else None
  }

  /** `TrackerState` together with the loop's `last_update_time`. */
  class AlarmState {
    /** Whether the background task exists and has not finished. */
    var running: bool
    var channel: Option<ChannelId>
    /** Whether `tracker_message` is set. */
    var hasMessage: bool
    var nodes: seq<Occurrence>
    var lastUpdate: real

    constructor()
      ensures !running && channel == None && !hasMessage && nodes == []
    {
      running := false;
      channel := None;
      hasMessage := false;
      nodes := [];
      lastUpdate := 0.0;
    }

    /** `start_command` in channel `ch`, with the rows read from the CSV file (none when
        it is missing) and the clock reading `initialTime`. The channel is taken and the
        message forgotten before the CSV check, so a failed start still moves them. */
    method StartCommand(ch: ChannelId, rows: seq<Row>, initialTime: real) returns (r: StartReport)
      modifies `channel, `hasMessage, `nodes, `running, `lastUpdate
      ensures old(running) ==>
                && r == AlreadyRunning && running && channel == old(channel)
                && hasMessage == old(hasMessage) && nodes == old(nodes)
      ensures !old(running) ==> channel == Some(ch) && !hasMessage
      ensures !old(running) && rows == [] ==> r == NoCsv && !running && nodes == old(nodes)
      ensures !old(running) && rows != [] ==> nodes == TimedNodes(rows, initialTime)
      ensures !old(running) && rows != [] && nodes == [] ==> r == NoValidNodes && !running
      ensures !old(running) && rows != [] && nodes != [] ==> r == Launched && running && lastUpdate == 0.0
      ensures r != Launched ==> lastUpdate == old(lastUpdate)
    {
      if running {
        return AlreadyRunning;
      }
      channel := Some(ch);
      hasMessage := false;
      if rows == [] {
        return NoCsv;
      }
      nodes := CollectTimed(rows, initialTime);
      if nodes == [] {
        return NoValidNodes;
      }
      running := true;
      lastUpdate := 0.0;
      r := Launched;
    }

    /** `stop_command`: cancels the task and forgets the message and the channel; the
        node list is kept. */
    method StopCommand() returns (r: StopReport)
      modifies `running, `hasMessage, `channel
      ensures !old(running) ==> r == NotRunning && channel == old(channel) && hasMessage == old(hasMessage)
      ensures old(running) ==> r == Stopped && channel == None && !hasMessage
      ensures !running
    {
      if !running {
        return NotRunning;
      }
      running := false;
      hasMessage := false;
      channel := None;
      r := Stopped;
    }

    /** The display step of the loop: when the cadence rule says so, records the refresh
        time and shows every location group of the soonest nodes (sending the message when
        there is none, and editing or resending it otherwise). */
    method RefreshDisplay(upcoming: seq<Occurrence>, remaining: real, now: real) returns (display: Option<Embed>)
      requires upcoming != []
      modifies `lastUpdate, `hasMessage
      ensures display == AlarmDisplay(upcoming, remaining, now, old(lastUpdate))
      ensures lastUpdate == (if display.Some? then now else old(lastUpdate))
      ensures hasMessage == (display.Some? || old(hasMessage))
    {
      display := None;
      if ShouldRefreshAlarm(remaining, now, lastUpdate) {
        lastUpdate := now;
        var groups := GroupEvents(upcoming);
        display := Some(AlarmEmbed(upcoming, groups, remaining));
        hasMessage := true;
      }
    }

    /** One iteration of `tracker_loop` at instant `now`: the elapsed nodes advance first,
        then the display step runs. Besides its report it returns the soonest nodes and the
        time remaining to them. */
    method Tick(now: real) returns (report: AlarmTick, upcoming: seq<Occurrence>, remaining: real)
      modifies `nodes, `lastUpdate, `hasMessage
      ensures nodes == Advance(old(nodes), now)
      ensures nodes == [] ==> report == Idle && lastUpdate == old(lastUpdate) && hasMessage == old(hasMessage)
      ensures nodes != [] ==>
                && upcoming == Upcoming(nodes, MinTs(nodes)) && upcoming != []
                && remaining == MinTs(nodes) - now
                && var display := AlarmDisplay(upcoming, remaining, now, old(lastUpdate));
                && report == Ticked(display)
                && lastUpdate == (if display.Some? then now else old(lastUpdate))
                && hasMessage == (display.Some? || old(hasMessage))
    {
      nodes := AdvanceAll(nodes, now);
      if nodes == [] {
        return Idle, [], 0.0;
      }
      var soonest := MinTs(nodes);
      remaining := soonest - now;
      SoonestGroupNonEmpty(nodes);
      upcoming := Upcoming(nodes, soonest);
      var display := RefreshDisplay(upcoming, remaining, now);
      report := Ticked(display);
    }
  }

  /** The script's first loop iteration at a real clock reading (60 s or more after the
      epoch) always shows a display, since its last refresh time starts at 0. */
  lemma FirstTickShows(upcoming: seq<Occurrence>, remaining: real, now: real)
    requires upcoming != [] && now >= NormalRefreshInterval
    ensures AlarmDisplay(upcoming, remaining, now, 0.0).Some?
  {
    AlarmFirstTickRefreshes(remaining, now);
  }
}

=== FILE: cadence.dfy ===
/**
 * When the tracker display is refreshed: a three-tier rule on the time remaining to
 * the soonest node and the time since the last refresh.
 */
module Cadence {

  const NormalRefreshInterval: real := 60.0
  const MediumThreshold: real := 30.0
  const MediumRefreshInterval: real := 5.0
  const UrgentThreshold: real := 10.0

  /** The refresh decision of the cog's tracker loop. */
  function ShouldRefresh(epochChanged: bool, remaining: real, now: real, last: real): (r: bool)
    ensures epochChanged || remaining <= UrgentThreshold ==> r
    ensures now - last >= NormalRefreshInterval ==> r
    ensures r && !epochChanged && remaining > UrgentThreshold ==> now - last >= MediumRefreshInterval
    ensures r && !epochChanged && remaining > MediumThreshold ==> now - last >= NormalRefreshInterval
  {
    if epochChanged then true
    else if remaining <= UrgentThreshold then true
    else if remaining <= MediumThreshold then now - last >= MediumRefreshInterval
    else now - last >= NormalRefreshInterval
  }

  /** The refresh decision of the stand-alone script, which has no epoch rule. */
  function ShouldRefreshAlarm(remaining: real, now: real, last: real): (r: bool)
    ensures remaining <= UrgentThreshold ==> r
    ensures now - last >= NormalRefreshInterval ==> r
    ensures r && remaining > UrgentThreshold ==> now - last >= MediumRefreshInterval
    ensures r && remaining > MediumThreshold ==> now - last >= NormalRefreshInterval
  {
    if remaining <= UrgentThreshold then true
    else if remaining <= MediumThreshold then now - last >= MediumRefreshInterval
    else now - last >= NormalRefreshInterval
  }

  /** The script's rule is the cog's rule on a tick where the soonest time did not change. */
  lemma AlarmIsCogWithoutEpoch(remaining: real, now: real, last: real)
    ensures ShouldRefreshAlarm(remaining, now, last) == ShouldRefresh(false, remaining, now, last)
  {
  }

  /** The proximity tiers, with the minimum spacing between refreshes in each. */
  datatype Tier = Urgent | Medium | Normal

  function TierOf(remaining: real): Tier {
    if remaining <= UrgentThreshold then Urgent
    else if remaining <= MediumThreshold then Medium
    else Normal
  }

  function MinSpacing(tier: Tier): real {
    match tier
    case Urgent => 0.0
    case Medium => MediumRefreshInterval
    case Normal => NormalRefreshInterval
  }

  /** The decision is: always when the soonest time changed, otherwise exactly when the
      current tier's minimum spacing has elapsed since the last refresh. */
  lemma RefreshByTier(epochChanged: bool, remaining: real, now: real, last: real)
    requires now >= last
    ensures ShouldRefresh(epochChanged, remaining, now, last) <==>
              (epochChanged || now - last >= MinSpacing(TierOf(remaining)))
  {
  }

  /** Waiting longer never turns a refresh into no refresh. */
  lemma RefreshMonotoneInElapsed(epochChanged: bool, remaining: real, now: real, later: real, last: real)
    requires now <= later
    requires ShouldRefresh(epochChanged, remaining, now, last)
    ensures ShouldRefresh(epochChanged, remaining, later, last)
  {
  }

  /** The script starts with `last_update_time = 0`, so its first tick at any real clock
      reading (well past 60 s after the epoch) refreshes. */
  lemma AlarmFirstTickRefreshes(remaining: real, now: real)
    requires now >= NormalRefreshInterval
    ensures ShouldRefreshAlarm(remaining, now, 0.0)
  {
  }

  /** One tick as the cadence rule sees it. */
  datatype TickInput = TickInput(epochChanged: bool, remaining: real, now: real)

  /** Number of refreshes over a run of ticks starting from `last`, updating `last`
      to `now` on each refresh. */
  function RefreshCount(last: real, ticks: seq<TickInput>): nat
    decreases |ticks|
  {
    if ticks == [] then 0
    else
      var t := ticks[0];
      if ShouldRefresh(t.epochChanged, t.remaining, t.now, last)
      then 1 + RefreshCount(t.now, ticks[1..])
      else RefreshCount(last, ticks[1..])
  }

  /** Far from a spawn (more than 30 s away) and with the soonest time unchanged, the
      display is refreshed at most once per 60 s: over ticks up to `end`, the number of
      refreshes times 60 is at most the time since the last refresh. */
  lemma {:induction false} FarRefreshBudget(last: real, ticks: seq<TickInput>, end: real)
    requires end >= last
    requires forall i :: 0 <= i < |ticks| ==>
               !ticks[i].epochChanged && ticks[i].remaining > MediumThreshold && ticks[i].now <= end
    ensures (RefreshCount(last, ticks) as real) * NormalRefreshInterval <= end - last
    decreases |ticks|
  {
    if ticks != [] {
      var t := ticks[0];
      if ShouldRefresh(t.epochChanged, t.remaining, t.now, last) {
        FarRefreshBudget(t.now, ticks[1..], end);
      } else {
        FarRefreshBudget(last, ticks[1..], end);
      }
    }
  }

  /** Outside the urgent tier and with the soonest time unchanged, refreshes are at least
      5 s apart. */
  lemma {:induction false} NonUrgentRefreshBudget(last: real, ticks: seq<TickInput>, end: real)
    requires end >= last
    requires forall i :: 0 <= i < |ticks| ==>
               !ticks[i].epochChanged && ticks[i].remaining > UrgentThreshold && ticks[i].now <= end
    ensures (RefreshCount(last, ticks) as real) * MediumRefreshInterval <= end - last
    decreases |ticks|
  {
    if ticks != [] {
      var t := ticks[0];
      if ShouldRefresh(t.epochChanged, t.remaining, t.now, last) {
        NonUrgentRefreshBudget(t.now, ticks[1..], end);
      } else {
        NonUrgentRefreshBudget(last, ticks[1..], end);
      }
    }
  }

  /** In the urgent tier every tick refreshes. */
  lemma {:induction false} UrgentRefreshesEveryTick(last: real, ticks: seq<TickInput>)
    requires forall i :: 0 <= i < |ticks| ==> ticks[i].remaining <= UrgentThreshold
    ensures RefreshCount(last, ticks) == |ticks|
    decreases |ticks|
  {
    if ticks != [] {
      UrgentRefreshesEveryTick(ticks[0].now, ticks[1..]);
    }
  }
}

=== FILE: clock.dfy ===
/**
 * The virtual ("Eorzea") clock. Real seconds are scaled by 3600/175 = 144/7 to
 * get virtual seconds, so one virtual minute lasts 175/60 = 35/12 real seconds
 * and one virtual day 1440 * 35/12 = 4200 real seconds. The source computes
 * with floats; this model is exact.
 */
module Clock {
  import opened Wrappers

  const MinutesPerDay: int := 1440
  /** Real seconds per virtual minute, the source's `175 / 60`. */
  const RealSecondsPerVirtualMinute: real := 35.0 / 12.0
  /** Real seconds per virtual day. */
  const VirtualDay: real := 4200.0

  type Hour = h: int | 0 <= h < 24

  /** Index of the virtual minute containing real instant `t`:
      `(t * EORZEA_MULTIPLIER) // 60`. */
  function MinuteIndex(t: real): int {
    (t * 12.0 / 35.0).Floor
  }

  /** The virtual minute of the day at real instant `t`. */
  function MinuteOfDay(t: real): (m: int)
    ensures 0 <= m < MinutesPerDay
  {
    MinuteIndex(t) % MinutesPerDay
  }

  /** Real instant at which virtual minute `MinuteIndex(t)` begins. */
  function MinuteStart(t: real): real {
    (MinuteIndex(t) as real) * RealSecondsPerVirtualMinute
  }

  lemma FloorShift(x: real, k: int)
    ensures (x + k as real).Floor == x.Floor + k
  {
  }

  lemma MinuteIndexShift(t: real, d: int)
    ensures MinuteIndex(t + (d as real) * RealSecondsPerVirtualMinute) == MinuteIndex(t) + d
  {
    assert (t + (d as real) * RealSecondsPerVirtualMinute) * 12.0 / 35.0 == t * 12.0 / 35.0 + d as real;
    FloorShift(t * 12.0 / 35.0, d);
  }

  lemma MinuteIndexMonotone(s: real, t: real)
    requires s <= t
    ensures MinuteIndex(s) <= MinuteIndex(t)
  {
  }

  /** Whole virtual minutes from the minute of `t` forward to the next minute-of-day
      `hour * 60` (0 when `t` already lies in it). */
  function MinutesToWait(hour: Hour, t: real): int {
    var diff := hour * 60 - MinuteOfDay(t);
    if diff < 0 then diff + MinutesPerDay else diff
  }

  /**
   * The next real instant at or after `t` that lies in virtual minute `hour:00`:
   * `_get_next_occurrence_timestamp` for a valid hour. The whole-minute difference is
   * added to `t` itself, so the result keeps `t`'s offset inside its virtual minute.
   */
  function NextSpawn(hour: Hour, t: real): (r: real)
    ensures t <= r < t + VirtualDay
    ensures MinuteOfDay(r) == hour * 60
    ensures r == t <==> MinuteOfDay(t) == hour * 60
  {
    var wait := MinutesToWait(hour, t);
    MinuteIndexShift(t, wait);
    t + (wait as real) * RealSecondsPerVirtualMinute
  }

  /** `_get_next_occurrence_timestamp`: `None` for an hour outside [0, 24). */
  function NextOccurrence(hour: int, t: real): (r: Option<real>)
    ensures r.None? <==> !(0 <= hour < 24)
    ensures r.Some? ==> t <= r.value < t + VirtualDay && MinuteOfDay(r.value) == hour * 60
  {
    if 0 <= hour < 24 then Some(NextSpawn(hour, t)) else None
  }

  /** The result lies in the FIRST virtual minute `hour:00` at or after `t`: no earlier
      instant from `t` on falls in an earlier occurrence of that minute of the day. */
  lemma {:induction false} NextSpawnIsFirst(hour: Hour, t: real, s: real)
    requires t <= s <= NextSpawn(hour, t)
    requires MinuteOfDay(s) == hour * 60
    ensures MinuteIndex(s) == MinuteIndex(NextSpawn(hour, t))
  {
    var d := MinutesToWait(hour, t);
    var c := MinuteIndex(t);
    MinuteIndexShift(t, d);
    MinuteIndexMonotone(t, s);
    MinuteIndexMonotone(s, NextSpawn(hour, t));
    var k := MinuteIndex(s) - c;
    assert 0 <= k <= d < MinutesPerDay;
  }

  /** The result sits at the same offset inside its virtual minute as `t` does in its own:
      it lands on virtual minute `hour:00` but, unless `t` was on a minute boundary, after
      that minute began. */
  lemma {:induction false} NextSpawnKeepsOffset(hour: Hour, t: real)
    ensures NextSpawn(hour, t) - MinuteStart(NextSpawn(hour, t)) == t - MinuteStart(t)
    ensures 0.0 <= t - MinuteStart(t) < RealSecondsPerVirtualMinute
  {
    MinuteIndexShift(t, MinutesToWait(hour, t));
  }

  /** Asking again from the instant returned gives that same instant back, not one
      virtual day later: the minute of day there already equals the target. */
  lemma NextSpawnRepeat(hour: Hour, t: real)
    ensures NextSpawn(hour, NextSpawn(hour, t)) == NextSpawn(hour, t)
  {
  }

  /** Asking from the first instant after the target minute has ended gives the next
      virtual day's occurrence: the answer is one virtual day after that minute began. */
  lemma {:induction false} NextSpawnAfterMinuteEnds(hour: Hour, t: real)
    requires MinuteOfDay(t) == (hour * 60 + 1) % MinutesPerDay
    ensures NextSpawn(hour, t) == t + VirtualDay - RealSecondsPerVirtualMinute
  {
  }

  /** A later query can return an EARLIER instant: the result is not monotonic in `t`. */
  lemma NextSpawnNotMonotonic()
    ensures 174.0 < 175.0 && NextSpawn(1, 174.0) > NextSpawn(1, 175.0)
  {
    assert MinuteIndex(174.0) == 59;
    assert MinuteIndex(175.0) == 60;
  }

  /** Python's `int()` on a float: truncation toward zero. */
  function Trunc(x: real): int {
    if x >= 0.0 then x.Floor else -((-x).Floor)
  }

  /** `_get_current_eorzea_time` at real instant `t`: `(hour, minute)` of the virtual day. */
  function EorzeaTime(t: real): (hm: (int, int))
    ensures 0 <= hm.0 < 24 && 0 <= hm.1 < 60
    ensures hm.0 * 60 + hm.1 == (Trunc(t * 144.0 / 7.0) / 60) % MinutesPerDay
  {
    var eorzeaSeconds := Trunc(t * 144.0 / 7.0);
    var minuteOfDay := (eorzeaSeconds / 60) % MinutesPerDay;
    (minuteOfDay / 60, minuteOfDay % 60)
  }

  lemma FloorDiv60(x: real)
    requires x >= 0.0
    ensures x.Floor / 60 == (x / 60.0).Floor
  {
    var n := x.Floor;
    var q := n / 60;
    assert 60 * q <= n < 60 * q + 60;
    assert (q as real) <= x / 60.0 < (q as real) + 1.0;
  }

  /** For non-negative instants the displayed clock and the scheduler agree on the
      minute of the day (they truncate and floor respectively, which differ only below 0). */
  lemma {:induction false} EorzeaTimeAgreesWithScheduler(t: real)
    requires t >= 0.0
    ensures EorzeaTime(t).0 * 60 + EorzeaTime(t).1 == MinuteOfDay(t)
  {
    var x := t * 144.0 / 7.0;
    FloorDiv60(x);
    assert x / 60.0 == t * 12.0 / 35.0;
  }

  /** At a computed spawn instant the displayed virtual clock reads `hour:00`. */
  lemma {:induction false} ClockShowsHourAtSpawn(hour: Hour, t: real)
    requires t >= 0.0
    ensures EorzeaTime(NextSpawn(hour, t)) == (hour, 0)
  {
    EorzeaTimeAgreesWithScheduler(NextSpawn(hour, t));
  }

  /**
   * `_format_time_delta`: negative durations show as zero; the pair is (minutes, seconds)
   * of the whole seconds in the duration.
   */
  function FormatTimeDelta(seconds: real): (ms: (int, int))
    ensures ms.0 >= 0 && 0 <= ms.1 < 60
    ensures ms.0 * 60 + ms.1 == if seconds > 0.0 then seconds.Floor else 0
  {
    var s := if seconds > 0.0 then seconds else 0.0;
    var minutes := (s / 60.0).Floor;
    var rest := s - 60.0 * minutes as real;
    FloorShift(rest, 60 * minutes);
    (minutes, rest.Floor)
  }

  /** A whole number of seconds is shown as its quotient and remainder by 60. */
  lemma {:induction false} FormatWholeSeconds(n: nat)
    ensures FormatTimeDelta(n as real) == (n / 60, n % 60)
  {
    var ms := FormatTimeDelta(n as real);
    if n > 0 {
      assert (n as real).Floor == n;
    }
    assert ms.0 * 60 + ms.1 == n;
  }
}

=== FILE: display.dfy ===
/**
 * The tracker display: soonest nodes grouped by location, the embed's field budget,
 * its colour, and the headline with the remaining time.
 */
module Display {
  import opened Wrappers
  import opened Clock
  import opened Nodes
  import opened Cadence

  /** A Discord channel id: where a display is posted. */
  type ChannelId = nat

  /** `(地区CN, 具体坐标)`: a grouping key. */
  datatype Location = Location(region: string, coords: string)

  /** One location and the names of the nodes found there, in arrival order. */
  datatype Group = Group(loc: Location, names: seq<string>)

  function LocOf(n: Occurrence): Location {
    Location(n.row.region, n.row.coords)
  }

  function Locs(gs: seq<Group>): (ls: seq<Location>)
    ensures |ls| == |gs|
  {
    seq(|gs|, i requires 0 <= i < |gs| => gs[i].loc)
  }

  predicate Distinct(ls: seq<Location>) {
    forall i, j :: 0 <= i < j < |ls| ==> ls[i] != ls[j]
  }

  /** `grouped[key].append(name)` on an insertion-ordered dictionary of lists. */
  function AddToGroups(gs: seq<Group>, loc: Location, name: string): (r: seq<Group>)
    ensures |gs| <= |r| <= |gs| + 1
  {
    if gs == [] then [Group(loc, [name])]
    else if gs[0].loc == loc then [gs[0].(names := gs[0].names + [name])] + gs[1..]
    else [gs[0]] + AddToGroups(gs[1..], loc, name)
  }

  /** Appending keeps the keys and their order, adding `loc` at the end when it is new. */
  lemma {:induction false} AddToGroupsLocs(gs: seq<Group>, loc: Location, name: string)
    ensures Locs(AddToGroups(gs, loc, name)) == if loc in Locs(gs) then Locs(gs) else Locs(gs) + [loc]
  {
    if gs != [] {
      var rest := gs[1..];
      assert Locs(gs) == [gs[0].loc] + Locs(rest);
      if gs[0].loc != loc {
        AddToGroupsLocs(rest, loc, name);
        assert Locs(AddToGroups(gs, loc, name)) == [gs[0].loc] + Locs(AddToGroups(rest, loc, name));
      } else {
        assert Locs(AddToGroups(gs, loc, name)) == Locs(gs);
      }
    }
  }

  /** Appending never drops a group. */
  lemma {:induction false} AddToGroupsLength(gs: seq<Group>, loc: Location, name: string)
    ensures |AddToGroups(gs, loc, name)| >= |gs|
    ensures |AddToGroups(gs, loc, name)| > |gs| ==> AddToGroups(gs, loc, name)[|gs|].names == [name]
  {
    if gs != [] && gs[0].loc != loc {
      AddToGroupsLength(gs[1..], loc, name);
    }
  }

  /** Group `i`, when no earlier group has its key, gains `name` exactly when its key is
      `loc`. */
  lemma {:induction false} AddToGroupsAt(gs: seq<Group>, loc: Location, name: string, i: nat)
    requires i < |gs|
    requires forall j :: 0 <= j < i ==> gs[j].loc != gs[i].loc
    ensures |AddToGroups(gs, loc, name)| >= |gs|
    ensures AddToGroups(gs, loc, name)[i].names == gs[i].names + (if gs[i].loc == loc then [name] else [])
  {
    AddToGroupsLength(gs, loc, name);
    if gs[0].loc != loc && i > 0 {
      var rest := gs[1..];
      forall j | 0 <= j < i - 1 ensures rest[j].loc != rest[i - 1].loc {
        assert rest[j] == gs[j + 1] && rest[i - 1] == gs[i];
      }
      AddToGroupsAt(rest, loc, name, i - 1);
    }
  }

  /** On groups with distinct keys, appending adds `name` to the group at `loc` (a new one
      at the end when there is none) and to no other. */
  lemma AddToGroupsNames(gs: seq<Group>, loc: Location, name: string)
    requires Distinct(Locs(gs))
    ensures |AddToGroups(gs, loc, name)| >= |gs|
    ensures forall i :: 0 <= i < |gs| ==>
              AddToGroups(gs, loc, name)[i].names == gs[i].names + (if gs[i].loc == loc then [name] else [])
    ensures |AddToGroups(gs, loc, name)| > |gs| ==> AddToGroups(gs, loc, name)[|gs|].names == [name]
  {
    AddToGroupsLength(gs, loc, name);
    forall i | 0 <= i < |gs|
      ensures AddToGroups(gs, loc, name)[i].names == gs[i].names + (if gs[i].loc == loc then [name] else [])
    {
      forall j | 0 <= j < i ensures gs[j].loc != gs[i].loc {
        assert Locs(gs)[j] == gs[j].loc && Locs(gs)[i] == gs[i].loc;
      }
      AddToGroupsAt(gs, loc, name, i);
    }
  }

  /** The grouping loop over the soonest nodes. */
  function Grouped(es: seq<Occurrence>): (gs: seq<Group>)
    ensures |gs| <= |es|
    ensures gs == [] <==> es == []
  {
    if es == [] then []
    else
      var last := es[|es| - 1];
      AddToGroups(Grouped(es[..|es| - 1]), LocOf(last), last.row.name)
  }

  /** The locations of the nodes, in node order. */
  function EventLocs(es: seq<Occurrence>): (ls: seq<Location>)
    ensures |ls| == |es|
  {
    seq(|es|, i requires 0 <= i < |es| => LocOf(es[i]))
  }

  /** The names of the nodes at `loc`, in node order. */
  function NamesAt(es: seq<Occurrence>, loc: Location): seq<string> {
    if es == [] then []
    else
      var last := es[|es| - 1];
      NamesAt(es[..|es| - 1], loc) + (if LocOf(last) == loc then [last.row.name] else [])
  }

  /** Grouping yields one group per distinct location of the nodes, and no other. */
  lemma {:induction false} GroupedLocs(es: seq<Occurrence>)
    ensures Distinct(Locs(Grouped(es)))
    ensures forall loc :: loc in Locs(Grouped(es)) <==> loc in EventLocs(es)
  {
    if es != [] {
      var front := es[..|es| - 1];
      var last := es[|es| - 1];
      GroupedLocs(front);
      AddToGroupsLocs(Grouped(front), LocOf(last), last.row.name);
      assert EventLocs(es) == EventLocs(front) + [LocOf(last)];
    }
  }

  lemma {:induction false} NamesAtAbsent(es: seq<Occurrence>, loc: Location)
    requires loc !in EventLocs(es)
    ensures NamesAt(es, loc) == []
  {
    if es != [] {
      var front := es[..|es| - 1];
      assert EventLocs(es) == EventLocs(front) + [LocOf(es[|es| - 1])];
      NamesAtAbsent(front, loc);
    }
  }

  /** Each group holds exactly the names of the nodes at its location, in node order. */
  lemma {:induction false} GroupedNames(es: seq<Occurrence>)
    ensures forall i :: 0 <= i < |Grouped(es)| ==> Grouped(es)[i].names == NamesAt(es, Grouped(es)[i].loc)
  {
    if es != [] {
      var front := es[..|es| - 1];
      var last := es[|es| - 1];
      GroupedNames(front);
      GroupedLocs(front);
      var gs := Grouped(front);
      AddToGroupsLocs(gs, LocOf(last), last.row.name);
      AddToGroupsNames(gs, LocOf(last), last.row.name);
      var r := Grouped(es);
      forall i | 0 <= i < |r| ensures r[i].names == NamesAt(es, r[i].loc) {
        assert Locs(r)[i] == r[i].loc;
        if i < |gs| {
          assert Locs(gs)[i] == gs[i].loc;
        } else {
          NamesAtAbsent(front, LocOf(last));
        }
      }
    }
  }

  /** The grouping loop of the tracker, over a dictionary kept as a sequence of groups. */
  method GroupEvents(es: seq<Occurrence>) returns (gs: seq<Group>)
    ensures gs == Grouped(es)
  {
    gs := [];
    var i := 0;
    while i < |es|
      invariant 0 <= i <= |es|
      invariant gs == Grouped(es[..i])
    {
      assert es[..i + 1][..i] == es[..i];
      gs := AddToGroups(gs, LocOf(es[i]), es[i].row.name);
      i := i + 1;
    }
    assert es[..|es|] == es;
  }

  /** An embed holds at most this many fields. */
  const MaxEmbedFields: nat := 25

  /** The cog's cap on location fields: with more than 24 groups it shows the first 23
      and reports how many were left out. */
  function CapGroups(gs: seq<Group>): (capped: (seq<Group>, nat))
    ensures capped.0 <= gs && |capped.0| + capped.1 == |gs|
    ensures 1 + |capped.0| + (if capped.1 > 0 then 1 else 0) <= MaxEmbedFields
    ensures |gs| <= MaxEmbedFields - 1 <==> capped.0 == gs
    ensures |gs| > MaxEmbedFields - 1 ==> |capped.0| == MaxEmbedFields - 2
    ensures capped.1 == 0 || capped.1 >= 2
  {
    if |gs| > MaxEmbedFields - 1 then (gs[..MaxEmbedFields - 2], |gs| - (MaxEmbedFields - 2)) else (gs, 0)
  }

  datatype Colour = Green | Orange | Red | Greyple

  /** The colour of an embed with upcoming nodes: orange within 30 s, red within 10 s. */
  function EmbedColour(remaining: real): (c: Colour)
    ensures c != Greyple
  {
    var c := Green;
    var c := if remaining <= MediumThreshold then Orange else c;
    if remaining <= UrgentThreshold then Red else c
  }

  /** The colour tracks the refresh tier: red exactly when urgent, orange exactly when
      medium, green otherwise. */
  lemma ColourFollowsTier(remaining: real)
    ensures EmbedColour(remaining) == match TierOf(remaining)
      case Urgent => Red
      case Medium => Orange
      case Normal => Green
  {
  }

  /** How the title names what is tracked; the stand-alone script's title names nothing. */
  datatype TitleMode = TrackingAll | TrackingList | StartedBy | Plain

  function Title(trackAll: bool, watchlist: seq<string>): (m: TitleMode)
    ensures m == TrackingAll <==> trackAll
    ensures m == TrackingList <==> !trackAll && watchlist != []
    ensures m != Plain
  {
    if trackAll then TrackingAll else if watchlist != [] then TrackingList else StartedBy
  }

  /** The first field: the soonest node's start hour text and the remaining time. */
  datatype Headline = Headline(startEt: string, minutes: int, seconds: int)

  datatype Embed = Embed(title: TitleMode, headline: Option<Headline>, fields: seq<Group>, omitted: nat, colour: Colour)

  /** Number of fields the embed adds. */
  function FieldCount(e: Embed): nat {
    (if e.headline.Some? then 1 else 0) + |e.fields| + (if e.omitted > 0 then 1 else 0)
  }

  /** `_build_embed`: grey and without fields when nothing is upcoming, otherwise the
      headline, the capped location groups and the proximity colour. */
  function BuildEmbed(title: TitleMode, upcoming: seq<Occurrence>, groups: seq<Group>, remaining: real): (e: Embed)
    ensures FieldCount(e) <= MaxEmbedFields
    ensures e.title == title
    ensures e.colour == Greyple <==> upcoming == []
    ensures upcoming == [] ==> FieldCount(e) == 0
    ensures upcoming != [] ==>
              && e.headline.Some? && e.headline.value.startEt == upcoming[0].row.startEt
              && (e.headline.value.minutes, e.headline.value.seconds) == FormatTimeDelta(remaining)
              && e.colour == EmbedColour(remaining)
              && (e.fields, e.omitted) == CapGroups(groups)
  {
    if upcoming == [] then Embed(title, None, [], 0, Greyple)
    else
      var capped := CapGroups(groups);
      var ms := FormatTimeDelta(remaining);
      Embed(title, Some(Headline(upcoming[0].row.startEt, ms.0, ms.1)), capped.0, capped.1, EmbedColour(remaining))
  }

  /** The embed of the tracker built from the node list: the soonest group at `now`,
      grouped by location. */
  function SoonestEmbed(title: TitleMode, ns: seq<Occurrence>, now: real): (e: Embed)
    requires ns != []
    ensures var soonest := MinTs(ns);
            var up := Upcoming(ns, soonest);
            && up != [] && e.title == title
            && e.headline.Some? && e.headline.value.startEt == up[0].row.startEt
            && (e.headline.value.minutes, e.headline.value.seconds) == FormatTimeDelta(soonest - now)
            && e.colour == EmbedColour(soonest - now)
            && (e.fields, e.omitted) == CapGroups(Grouped(up))
  {
    SoonestGroupNonEmpty(ns);
    var soonest := MinTs(ns);
    var upcoming := Upcoming(ns, soonest);
    BuildEmbed(title, upcoming, Grouped(upcoming), soonest - now)
  }

  /** What the soonest embed shows: one field per location of the soonest nodes, none
      twice, each listing exactly the names of that location's nodes in node order, and
      every location either shown or counted as left out. */
  lemma {:induction false} SoonestEmbedFields(title: TitleMode, ns: seq<Occurrence>, now: real)
    requires ns != []
    ensures var e := SoonestEmbed(title, ns, now);
            var up := Upcoming(ns, MinTs(ns));
            && Distinct(Locs(e.fields))
            && (forall i :: 0 <= i < |e.fields| ==> e.fields[i].names == NamesAt(up, e.fields[i].loc))
            && (forall loc :: loc in Locs(e.fields) ==> loc in EventLocs(up))
            && (e.omitted == 0 ==> forall loc :: loc in EventLocs(up) ==> loc in Locs(e.fields))
  {
    var e := SoonestEmbed(title, ns, now);
    var up := Upcoming(ns, MinTs(ns));
    var gs := Grouped(up);
    GroupedLocs(up);
    GroupedNames(up);
    assert e.fields <= gs;
    forall i | 0 <= i < |e.fields| ensures e.fields[i] == gs[i] && Locs(e.fields)[i] == Locs(gs)[i] {
    }
  }

  /** The stand-alone script's embed: the same headline and colour, every location group
      shown (no field cap). */
  function AlarmEmbed(upcoming: seq<Occurrence>, groups: seq<Group>, remaining: real): (e: Embed)
    requires upcoming != []
    ensures e.fields == groups && e.omitted == 0 && FieldCount(e) == 1 + |groups|
    ensures e.headline.Some? && e.headline.value.startEt == upcoming[0].row.startEt
    ensures (e.headline.value.minutes, e.headline.value.seconds) == FormatTimeDelta(remaining)
    ensures e.colour == EmbedColour(remaining)
  {
    var ms := FormatTimeDelta(remaining);
    Embed(Plain, Some(Headline(upcoming[0].row.startEt, ms.0, ms.1)), groups, 0, EmbedColour(remaining))
  }

  /** The cog caps where the script does not: on the same soonest nodes both show the same
      headline and colour, and the same fields exactly when there are at most 24 locations. */
  lemma CapMatchesScriptWhenSmall(title: TitleMode, upcoming: seq<Occurrence>, groups: seq<Group>, remaining: real)
    requires upcoming != []
    ensures var cog := BuildEmbed(title, upcoming, groups, remaining);
            var script := AlarmEmbed(upcoming, groups, remaining);
            && cog.headline == script.headline && cog.colour == script.colour
            && (cog.fields == script.fields <==> |groups| <= MaxEmbedFields - 1)
  {
  }
}

=== FILE: manager.dfy ===
/**
 * The tracker manager: the per-user watchlist and ping tables with the commands that
 * change them and the files they are saved to, the item names known from the CSV rows,
 * and the registry of running trackers, one per channel.
 */
module Manager {
  import opened Wrappers
  import opened Text
  import opened Nodes
  import opened Watchlists
  import opened Display
  import opened Tracker

  /** The item names of the rows: every non-empty `材料名CN`. */
  function ItemNames(rows: seq<Row>): set<string> {
    if rows == [] then {}
    else
      var last := rows[|rows| - 1];
      ItemNames(rows[..|rows| - 1]) + (if last.name != "" then {last.name} else {})
  }

  /** The `材料名CN` column of the rows, in order. */
  function RowNames(rows: seq<Row>): (names: seq<string>)
    ensures |names| == |rows|
  {
    seq(|rows|, i requires 0 <= i < |rows| => rows[i].name)
  }

  /** A name is known exactly when it is non-empty and some row carries it. */
  lemma {:induction false} ItemNamesExact(rows: seq<Row>)
    ensures forall x :: x in ItemNames(rows) <==> x != "" && x in RowNames(rows)
  {
    if rows != [] {
      var front := rows[..|rows| - 1];
      ItemNamesExact(front);
      assert RowNames(rows) == RowNames(front) + [rows[|rows| - 1].name];
    }
  }

  /** What `add_to_watchlist` reports: the added, already listed and unknown names. */
  datatype AddReport = AddReport(added: seq<string>, existing: seq<string>, notFound: seq<string>)

  /** What `remove_from_watchlist` reports. */
  datatype RemoveReport = ListEmpty | Removed(removed: seq<string>, notFound: seq<string>)

  /** What `copy_watchlist` reports. */
  datatype CopyReport = SourceEmpty | Copied(count: int) | NothingNew

  /** What `set_ping_for_user` reports. */
  datatype PingReport = PingSet(seconds: int) | PingOff | PingNotOn

  /** What `start_tracker_for_channel` reports. */
  datatype StartReport = AlreadyRunning | NoData | Outcome(outcome: StartOutcome)

  /** Removing nothing leaves the list as it was. */
  lemma {:induction false} RemoveNothing(list: seq<string>, items: seq<string>)
    requires RemoveAll(list, items).removed == []
    ensures RemoveAll(list, items).list == list
  {
    if items != [] {
      var front := items[..|items| - 1];
      RemoveNothing(list, front);
    }
  }

  /** A duplicate-free list has as many names as elements. */
  lemma {:induction false} NoDupCard(s: seq<string>)
    requires NoDup(s)
    ensures |set x | x in s| == |s|
  {
    if s != [] {
      var rest := s[1..];
      NoDupTail(s);
      NoDupCard(rest);
      SetOfCons(s);
    }
  }

  /** The tail of a duplicate-free list is duplicate-free and does not hold the head. */
  lemma NoDupTail(s: seq<string>)
    requires NoDup(s) && s != []
    ensures NoDup(s[1..]) && s[0] !in s[1..]
  {
    var rest := s[1..];
    forall i, j | 0 <= i < j < |rest| ensures rest[i] != rest[j] {
      assert rest[i] == s[i + 1] && rest[j] == s[j + 1];
    }
    forall j | 0 <= j < |rest| ensures rest[j] != s[0] {
      assert rest[j] == s[j + 1];
    }
  }

  /** The elements of a non-empty list are its head and the elements of its tail. */
  lemma SetOfCons(s: seq<string>)
    requires s != []
    ensures (set x | x in s) == (set x | x in s[1..]) + {s[0]}
  {
    assert s == [s[0]] + s[1..];
  }

  /** On a destination without duplicates the copy count is the number of source names
      it did not hold. */
  lemma CopyCountsNewNames(dest: seq<string>, source: seq<string>)
    requires NoDup(dest)
    ensures |MergeLists(dest, source)| - |dest| == |(set x | x in source) - (set x | x in dest)|
  {
    var m := MergeLists(dest, source);
    NoDupCard(dest);
    NoDupCard(m);
    var d := set x | x in dest;
    var s := set x | x in source;
    assert (set x | x in m) == d + (s - d);
    assert d * (s - d) == {};
  }

  /** A destination holding a name twice loses the duplicate: the count is negative and
      the copy reports nothing new, although the list changed. */
  lemma CopyCountNegativeWithDuplicates()
    ensures |MergeLists(["a", "a"], ["a"])| - 2 == -1
  {
    assert ["a", "a"] + ["a"] == ["a", "a", "a"];
    assert ["a", "a", "a"][1..] == ["a", "a"] && ["a", "a"][1..] == ["a"] && ["a"][1..] == [];
    assert SortedSet(["a"]) == ["a"];
    assert SortedSet(["a", "a"]) == ["a"];
    assert SortedSet(["a", "a", "a"]) == ["a"];
  }

  lemma AddAllSnoc(list: seq<string>, items: seq<string>, x: string, known: set<string>)
    ensures AddAll(list, items + [x], known) == AddStep(AddAll(list, items, known), x, known)
  {
    assert (items + [x])[..|items|] == items;
  }

  lemma RemoveAllSnoc(list: seq<string>, items: seq<string>, x: string)
    ensures RemoveAll(list, items + [x]) == RemoveStep(RemoveAll(list, items), x)
  {
    assert (items + [x])[..|items|] == items;
  }

  /** The loop of `add_to_watchlist` over the cleaned items, from the list `list0`. */
  method AddItems(list0: seq<string>, items: seq<string>, known: set<string>) returns (st: AddState)
    ensures st == AddAll(list0, items, known)
  {
    var list, added, existing, notFound := list0, [], [], [];
    var i := 0;
    while i < |items|
      invariant 0 <= i <= |items|
      invariant AddState(list, added, existing, notFound) == AddAll(list0, items[..i], known)
    {
      var item := items[i];
      assert items[..i + 1] == items[..i] + [item];
      AddAllSnoc(list0, items[..i], item, known);
      if item != "" {
        if item in list {
          existing := existing + [item];
        } else if item in known {
          list := list + [item];
          added := added + [item];
        } else {
          notFound := notFound + [item];
        }
      }
      i := i + 1;
    }
    assert items[..|items|] == items;
    st := AddState(list, added, existing, notFound);
  }

  /** The loop of `remove_from_watchlist` over the cleaned items, from the list `list0`. */
  method RemoveItems(list0: seq<string>, items: seq<string>) returns (st: RemoveState)
    ensures st == RemoveAll(list0, items)
  {
    var list, removed, notFound := list0, [], [];
    var i := 0;
    while i < |items|
      invariant 0 <= i <= |items|
      invariant RemoveState(list, removed, notFound) == RemoveAll(list0, items[..i])
    {
      var item := items[i];
      assert items[..i + 1] == items[..i] + [item];
      RemoveAllSnoc(list0, items[..i], item);
      if item != "" {
        if item in list {
          list := RemoveFirst(list, item);
          removed := removed + [item];
        } else {
          notFound := notFound + [item];
        }
      }
      i := i + 1;
    }
    assert items[..|items|] == items;
    st := RemoveState(list, removed, notFound);
  }

  /** What a successful launch leaves: a tracker for `author` over `wl` whose node list
      was built from `rows`, and the outcome of its start. */
  ghost predicate Launched(instance: TrackerInstance, outcome: StartOutcome, author: UserId, trackAll: bool,
                           wl: seq<string>, rows: seq<Row>, prepareTime: real, embedTime: real, sendOk: bool)
    reads instance
  {
    && instance.author == author && instance.trackAll == trackAll && instance.watchlist == wl
    && instance.nodes == Monitored(TimedNodes(rows, prepareTime), trackAll, wl)
    && (instance.nodes == [] ==> outcome == NothingToTrack(trackAll))
    && (instance.nodes != [] && !sendOk ==> outcome == SendFailed)
    && (instance.nodes != [] && sendOk ==> outcome == Started(SoonestEmbed(instance.TitleMode(), instance.nodes, embedTime)))
    && (outcome.Started? <==> instance.running)
  }

  /** Creating and starting a tracker. */
  method Launch(author: UserId, trackAll: bool, wl: seq<string>, rows: seq<Row>, prepareTime: real,
                embedTime: real, sendOk: bool) returns (instance: TrackerInstance, outcome: StartOutcome)
    ensures fresh(instance)
    ensures Launched(instance, outcome, author, trackAll, wl, rows, prepareTime, embedTime, sendOk)
  {
    instance := new TrackerInstance(author, trackAll, wl);
    outcome := instance.Start(rows, prepareTime, embedTime, sendOk);
  }

  class TrackerManager {
    /** `user_watchlists`. */
    var watchlists: map<UserId, seq<string>>
    /** `user_pings`. */
    var pings: map<UserId, int>
    /** `all_nodes_data`: the CSV rows. */
    var rows: seq<Row>
    /** `all_item_names`, kept as a set (only membership is used). */
    var itemNames: set<string>
    /** `active_trackers`. */
    var active: map<ChannelId, TrackerInstance>
    /** What the watchlist file and the ping file hold after the last save. */
    var watchlistFile: map<UserId, seq<string>>
    var pingFile: map<UserId, int>

    constructor()
      ensures watchlists == map[] && pings == map[] && rows == [] && itemNames == {} && active == map[]
    {
      watchlists := map[];
      pings := map[];
      rows := [];
      itemNames := {};
      active := map[];
      watchlistFile := map[];
      pingFile := map[];
    }

    /** `load_data`, given what the two JSON files parse to (`None` when a file is missing
        or not valid JSON) and the CSV rows (none when the file is missing). The item
        names are rebuilt only when there are rows; otherwise the old ones stay. */
    method LoadData(watchlistJson: Option<map<UserId, seq<string>>>, pingJson: Option<map<UserId, int>>,
                    csvRows: seq<Row>)
      modifies `watchlists, `pings, `rows, `itemNames
      ensures watchlists == (if watchlistJson.Some? then watchlistJson.value else map[])
      ensures pings == (if pingJson.Some? then pingJson.value else map[])
      ensures rows == csvRows
      ensures itemNames == if csvRows != [] then ItemNames(csvRows) else old(itemNames)
    {
      watchlists := if watchlistJson.Some? then watchlistJson.value else map[];
      pings := if pingJson.Some? then pingJson.value else map[];
      rows := csvRows;
      if rows != [] {
        var names: set<string> := {};
        var i := 0;
        while i < |rows|
          invariant 0 <= i <= |rows|
          invariant names == ItemNames(rows[..i])
        {
          assert rows[..i + 1][..i] == rows[..i];
          if rows[i].name != "" {
            names := names + {rows[i].name};
          }
          i := i + 1;
        }
        assert rows[..|rows|] == rows;
        itemNames := names;
      }
    }

    /** `add_to_watchlist`: the user's list gets every cleaned, known, not yet listed item,
        in order; the user's entry exists afterwards even when nothing was added, and the
        file is saved exactly when something was. Also returns the cleaned items and the
        user's new list. */
    method AddToWatchlist(user: UserId, itemsText: string) returns (report: AddReport, items: seq<string>, list: seq<string>)
      modifies `watchlists, `watchlistFile
      ensures items == CleanAll(SplitItems(itemsText))
      ensures AddAll(WatchlistOf(old(watchlists), user), items, itemNames) ==
                AddState(list, report.added, report.existing, report.notFound)
      ensures watchlists == old(watchlists)[user := list]
      ensures watchlistFile == if report.added != [] then watchlists else old(watchlistFile)
    {
      items := CleanAll(SplitItems(itemsText));
      var st := AddItems(WatchlistOf(watchlists, user), items, itemNames);
      list := st.list;
      watchlists := watchlists[user := list];
      if st.added != [] {
        watchlistFile := watchlists;
      }
      report := AddReport(st.added, st.existing, st.notFound);
    }

    /** `remove_from_watchlist`: nothing happens for a user without an entry; otherwise
        the first occurrence of each cleaned, listed item is removed, an entry emptied by
        the removal is deleted, and the file is saved exactly when something was removed.
        Also returns the cleaned items and the user's new list. */
    method RemoveFromWatchlist(user: UserId, itemsText: string)
      returns (report: RemoveReport, items: seq<string>, list: seq<string>)
      modifies `watchlists, `watchlistFile
      ensures items == CleanAll(SplitItems(itemsText))
      ensures user !in old(watchlists) ==>
                report == ListEmpty && list == [] && watchlists == old(watchlists) && watchlistFile == old(watchlistFile)
      ensures user in old(watchlists) ==>
                report.Removed? && RemoveAll(old(watchlists)[user], items) == RemoveState(list, report.removed, report.notFound)
      ensures report.Removed? ==>
                && watchlists == (if report.removed != [] && list == [] then old(watchlists) - {user}
                                  else old(watchlists)[user := list])
                && watchlistFile == if report.removed != [] then watchlists else old(watchlistFile)
    {
      items := CleanAll(SplitItems(itemsText));
      if user !in watchlists {
        return ListEmpty, items, [];
      }
      var st := RemoveItems(watchlists[user], items);
      list := st.list;
      if st.removed != [] {
        if list == [] {
          watchlists := watchlists - {user};
        } else {
          watchlists := watchlists[user := list];
        }
        watchlistFile := watchlists;
      } else {
        RemoveNothing(watchlists[user], items);
        assert watchlists == watchlists[user := list];
      }
      report := Removed(st.removed, st.notFound);
    }

    /** `get_watchlist`. */
    function GetWatchlist(user: UserId): (list: seq<string>)
      reads this
      ensures user in watchlists ==> list == watchlists[user]
      ensures user !in watchlists ==> list == []
    {
      WatchlistOf(watchlists, user)
    }

    /** `clear_watchlist`: deletes the user's entry, saving only when there was one. */
    method ClearWatchlist(user: UserId)
      modifies `watchlists, `watchlistFile
      ensures watchlists == old(watchlists) - {user}
      ensures watchlistFile == if user in old(watchlists) then watchlists else old(watchlistFile)
      ensures GetWatchlist(user) == []
    {
      if user in watchlists {
        watchlists := watchlists - {user};
        watchlistFile := watchlists;
      }
    }

    /** `copy_watchlist`: with a non-empty source list, the destination becomes the sorted
        union of both lists and the count is how much longer it got; the file is saved
        only for a positive count. */
    method CopyWatchlist(source: UserId, dest: UserId) returns (report: CopyReport)
      modifies `watchlists, `watchlistFile
      ensures WatchlistOf(old(watchlists), source) == [] ==>
                report == SourceEmpty && watchlists == old(watchlists) && watchlistFile == old(watchlistFile)
      ensures WatchlistOf(old(watchlists), source) != [] ==>
                var before := WatchlistOf(old(watchlists), dest);
                var merged := MergeLists(before, WatchlistOf(old(watchlists), source));
                var count := |merged| - |before|;
                && watchlists == old(watchlists)[dest := merged]
                && report == (if count > 0 then Copied(count) else NothingNew)
                && watchlistFile == if count > 0 then watchlists else old(watchlistFile)
    {
      var sourceList := GetWatchlist(source);
      if sourceList == [] {
        return SourceEmpty;
      }
      var destList := GetWatchlist(dest);
      var merged := MergeLists(destList, sourceList);
      watchlists := watchlists[dest := merged];
      var count := |merged| - |destList|;
      if count > 0 {
        watchlistFile := watchlists;
        report := Copied(count);
      } else {
        report := NothingNew;
      }
    }

    /** `set_ping_for_user`: -1 (the command's `off`) deletes the user's entry, reporting
        whether there was one and saving only then; any other value is stored and saved. */
    method SetPing(user: UserId, seconds: int) returns (report: PingReport)
      modifies `pings, `pingFile
      ensures pings == PingsAfterSet(old(pings), user, seconds)
      ensures seconds != -1 ==> report == PingSet(seconds)
      ensures seconds == -1 ==> report == (if user in old(pings) then PingOff else PingNotOn)
      ensures pingFile == if report == PingNotOn then old(pingFile) else pings
      ensures GetPing(user) == seconds
    {
      if seconds == -1 {
        if user in pings {
          pings := pings - {user};
          pingFile := pings;
          return PingOff;
        }
        return PingNotOn;
      }
      pings := pings[user := seconds];
      pingFile := pings;
      report := PingSet(seconds);
    }

    /** `get_ping_for_user`. */
    function GetPing(user: UserId): (lead: int)
      reads this
      ensures user in pings ==> lead == pings[user]
      ensures lead == -1 <==> user !in pings || pings[user] == -1
    {
      PingOf(pings, user)
    }

    /** `start_tracker_for_channel` for `author` in channel `ch`: refused when the channel
        already has a tracker or no CSV rows are loaded; otherwise a new tracker over the
        author's watchlist is created (and returned), started, and registered only if its
        start succeeded. */
    method StartTrackerForChannel(ch: ChannelId, author: UserId, trackAll: bool, prepareTime: real,
                                  embedTime: real, sendOk: bool) returns (report: StartReport, instance: TrackerInstance?)
      modifies `active
      ensures ch in old(active) ==> report == AlreadyRunning && instance == null && active == old(active)
      ensures ch !in old(active) && rows == [] ==> report == NoData && instance == null && active == old(active)
      ensures ch !in old(active) && rows != [] ==>
                && instance != null && fresh(instance) && report.Outcome?
                && Launched(instance, report.outcome, author, trackAll, WatchlistOf(watchlists, author), rows,
                            prepareTime, embedTime, sendOk)
                && active == if report.outcome.Started? then old(active)[ch := instance] else old(active)
    {
      if ch in active {
        return AlreadyRunning, null;
      }
      if rows == [] {
        return NoData, null;
      }
      var outcome;
      instance, outcome := Launch(author, trackAll, GetWatchlist(author), rows, prepareTime, embedTime, sendOk);
      if outcome.Started? {
        active := active[ch := instance];
      }
      report := Outcome(outcome);
    }

    /** `stop_tracker_for_channel`: stops and unregisters the channel's tracker, if any. */
    method StopTrackerForChannel(ch: ChannelId) returns (stopped: bool)
      modifies `active, if ch in active then {active[ch]} else {}
      ensures stopped == (ch in old(active))
      ensures active == old(active) - {ch}
      ensures stopped ==> !old(active)[ch].running && !old(active)[ch].hasMessage
      ensures stopped ==> var t: TrackerInstance := old(active)[ch]; unchanged(t`nodes, t`pinged, t`lastUpdate)
    {
      if ch !in active {
        return false;
      }
      var instance := active[ch];
      instance.Stop();
      active := active - {ch};
      stopped := true;
    }
  }
}

=== FILE: nodes.dfy ===
/**
 * Gathering nodes and their occurrences: which CSV rows are time-based, the initial
 * node list, the per-tick advance of elapsed nodes, and the soonest group.
 */
module Nodes {
  import opened Wrappers
  import opened Clock
  import opened Text

  /** One CSV row, with the columns the core reads: `材料名CN` (name), `地区CN` (region),
      `具体坐标` (coordinates) and `开始ET` (start hour, as text). */
  datatype Row = Row(name: string, region: string, coords: string, startEt: string)

  /** A monitored node: `{'data': row, 'next_ts': ..., 'et_hour': ...}`. */
  datatype Occurrence = Occurrence(row: Row, nextTs: real, hour: Hour)

  /** The start hour of a row when `开始ET`, stripped, is all digits. */
  function StartHour(row: Row): Option<nat> {
    var s := StripChars(row.startEt, Whitespace);
    if IsAllDigits(s) then Some(DigitsValue(s)) else None
  }

  predicate HasValidHour(row: Row) {
    StartHour(row).Some? && StartHour(row).value < 24
  }

  /** The node one row contributes at instant `t`: none when its start hour is missing,
      not all digits, or out of range, and none when the computed timestamp is falsy
      (`if next_ts:` rejects 0.0). */
  function Schedule(row: Row, t: real): (n: Option<Occurrence>)
    ensures n.Some? ==>
              && HasValidHour(row) && n.value.row == row
              && n.value.hour == StartHour(row).value && n.value.nextTs == NextSpawn(n.value.hour, t)
  {
    match StartHour(row)
    case None => None
    case Some(h) =>
      match NextOccurrence(h, t)
      case None => None
      case Some(ts) => if ts != 0.0 then Some(Occurrence(row, ts, h)) else None
  }

  /** For a positive start instant (every real clock reading) a row yields a node exactly
      when its start hour is valid. */
  lemma ScheduleExact(row: Row, t: real)
    requires t > 0.0
    ensures Schedule(row, t).Some? <==> HasValidHour(row)
  {
  }

  /** At instant 0.0 a row starting at hour 0 is dropped: the timestamp computed for it
      is 0.0, which `if next_ts:` treats as missing. */
  lemma ScheduleDropsZeroTimestamp()
    ensures HasValidHour(Row("n", "r", "c", "0"))
    ensures Schedule(Row("n", "r", "c", "0"), 0.0) == None
  {
    var row := Row("n", "r", "c", "0");
    assert '0' !in Whitespace;
    assert StripLeft("0", Whitespace) == "0";
    assert StripRight("0", Whitespace) == "0";
    assert "0"[..0] == [];
    assert DigitsValue("0") == 0;
    assert StartHour(row) == Some(0);
    assert MinuteIndex(0.0) == 0;
    assert MinutesToWait(0, 0.0) == 0;
    assert NextOccurrence(0, 0.0) == Some(0.0);
  }

  /** The node list built from `rows` at instant `t`, in row order. */
  function TimedNodes(rows: seq<Row>, t: real): seq<Occurrence> {
    if rows == [] then []
    else
      var front := TimedNodes(rows[..|rows| - 1], t);
      match Schedule(rows[|rows| - 1], t)
      case None => front
      case Some(n) => front + [n]
  }

  function RowsOf(ns: seq<Occurrence>): (rs: seq<Row>)
    ensures |rs| == |ns|
  {
    seq(|ns|, i requires 0 <= i < |ns| => ns[i].row)
  }

  /** The rows with a valid start hour, in order. */
  function ValidRows(rows: seq<Row>): seq<Row> {
    if rows == [] then []
    else
      var front := ValidRows(rows[..|rows| - 1]);
      if HasValidHour(rows[|rows| - 1]) then front + [rows[|rows| - 1]] else front
  }

  /** Building the node list keeps exactly the rows with a valid start hour, in order. */
  lemma {:induction false} TimedNodesExact(rows: seq<Row>, t: real)
    requires t > 0.0
    ensures RowsOf(TimedNodes(rows, t)) == ValidRows(rows)
  {
    if rows != [] {
      var last := rows[|rows| - 1];
      TimedNodesExact(rows[..|rows| - 1], t);
      ScheduleExact(last, t);
      var front := TimedNodes(rows[..|rows| - 1], t);
      match Schedule(last, t)
      case None =>
      case Some(n) =>
        assert RowsOf(front + [n]) == RowsOf(front) + [n.row];
    }
  }

  /** Every node built at `t` carries its row's start hour and the next occurrence of
      that hour from `t`. */
  lemma {:induction false} TimedNodesScheduled(rows: seq<Row>, t: real)
    ensures forall n :: n in TimedNodes(rows, t) ==>
              && HasValidHour(n.row)
              && n.hour == StartHour(n.row).value
              && n.nextTs == NextSpawn(n.hour, t)
  {
    if rows != [] {
      TimedNodesScheduled(rows[..|rows| - 1], t);
    }
  }

  /** The node-construction loop of `_prepare_monitored_nodes` and `start_command`. */
  method CollectTimed(rows: seq<Row>, t: real) returns (nodes: seq<Occurrence>)
    ensures nodes == TimedNodes(rows, t)
  {
    nodes := [];
    var i := 0;
    while i < |rows|
      invariant 0 <= i <= |rows|
      invariant nodes == TimedNodes(rows[..i], t)
    {
      assert rows[..i + 1][..i] == rows[..i];
      match Schedule(rows[i], t) {
        case Some(n) => nodes := nodes + [n];
        case None =>
      }
      i := i + 1;
    }
    assert rows[..|rows|] == rows;
  }

  /** The nodes whose row name is on the watchlist, in order. */
  function Watched(ns: seq<Occurrence>, watchlist: seq<string>): (ws: seq<Occurrence>)
    ensures forall n :: n in ws <==> n in ns && n.row.name in watchlist
    ensures |ws| <= |ns|
  {
    if ns == [] then []
    else
      var front := Watched(ns[..|ns| - 1], watchlist);
      var last := ns[|ns| - 1];
      assert ns == ns[..|ns| - 1] + [last];
      if last.row.name in watchlist then front + [last] else front
  }

  /** The filter keeps list order and multiplicity: it works piecewise on a concatenation,
      and a single node is kept exactly when its name is listed. */
  lemma {:induction false} WatchedAppend(a: seq<Occurrence>, b: seq<Occurrence>, watchlist: seq<string>)
    ensures Watched(a + b, watchlist) == Watched(a, watchlist) + Watched(b, watchlist)
    ensures |b| == 1 ==> Watched(b, watchlist) == if b[0].row.name in watchlist then b else []
  {
    if b == [] {
      assert a + b == a;
    } else {
      var front, last := b[..|b| - 1], b[|b| - 1];
      var ab := a + b;
      assert ab[..|ab| - 1] == a + front && ab[|ab| - 1] == last;
      WatchedAppend(a, front, watchlist);
      var tail := if last.row.name in watchlist then [last] else [];
      assert Watched(ab, watchlist) == Watched(a + front, watchlist) + tail;
      assert Watched(b, watchlist) == Watched(front, watchlist) + tail;
      if |b| == 1 {
        assert front == [];
      }
    }
  }

  /** The monitored set: every timed node when tracking all or when the watchlist is
      empty, otherwise those on the watchlist. */
  function Monitored(full: seq<Occurrence>, trackAll: bool, watchlist: seq<string>): (ms: seq<Occurrence>)
    ensures forall n :: n in ms <==> n in full && (trackAll || watchlist == [] || n.row.name in watchlist)
  {
    if trackAll || watchlist == [] then full else Watched(full, watchlist)
  }

  /** The monitored list also works piecewise: its order and multiplicity are those of
      the timed nodes. */
  lemma MonitoredAppend(a: seq<Occurrence>, b: seq<Occurrence>, trackAll: bool, watchlist: seq<string>)
    ensures Monitored(a + b, trackAll, watchlist) == Monitored(a, trackAll, watchlist) + Monitored(b, trackAll, watchlist)
    ensures |b| == 1 ==>
              Monitored(b, trackAll, watchlist) == if trackAll || watchlist == [] || b[0].row.name in watchlist then b else []
  {
    WatchedAppend(a, b, watchlist);
  }

  /** One node after a tick at `now`: recomputed from `now` once elapsed. */
  function Refresh(n: Occurrence, now: real): (r: Occurrence)
    ensures r.row == n.row && r.hour == n.hour
    ensures r.nextTs >= now && r.nextTs >= n.nextTs
    ensures n.nextTs > now ==> r == n
    ensures n.nextTs <= now ==> MinuteOfDay(r.nextTs) == r.hour * 60 && r.nextTs < now + VirtualDay
  {
    if now >= n.nextTs then n.(nextTs := NextSpawn(n.hour, now)) else n
  }

  /** The tick's update of every node: `if now >= next_ts: next_ts = next(et_hour, now)`. */
  function Advance(ns: seq<Occurrence>, now: real): (r: seq<Occurrence>)
    ensures |r| == |ns|
    ensures forall i :: 0 <= i < |ns| ==> r[i].row == ns[i].row && r[i].hour == ns[i].hour
    ensures forall i :: 0 <= i < |ns| ==> r[i].nextTs >= now && r[i].nextTs >= ns[i].nextTs
    ensures forall i :: 0 <= i < |ns| && ns[i].nextTs > now ==> r[i] == ns[i]
    ensures forall i :: 0 <= i < |ns| && ns[i].nextTs <= now ==>
      MinuteOfDay(r[i].nextTs) == r[i].hour * 60 && r[i].nextTs < now + VirtualDay
  {
    seq(|ns|, i requires 0 <= i < |ns| => Refresh(ns[i], now))
  }

  /** The advance loop of both trackers: `for node in nodes: if now >= node['next_ts']:
      node['next_ts'] = next(node['et_hour'], now)`. */
  method AdvanceAll(ns: seq<Occurrence>, now: real) returns (r: seq<Occurrence>)
    ensures r == Advance(ns, now)
  {
    r := ns;
    var i := 0;
    while i < |r|
      invariant 0 <= i <= |r| == |ns|
      invariant forall k :: 0 <= k < i ==> r[k] == Refresh(ns[k], now)
      invariant forall k :: i <= k < |r| ==> r[k] == ns[k]
    {
      if now >= r[i].nextTs {
        r := r[i := r[i].(nextTs := NextSpawn(r[i].hour, now))];
      }
      i := i + 1;
    }
  }

  /** Advancing twice at the same instant changes nothing more. */
  lemma AdvanceIdempotent(ns: seq<Occurrence>, now: real)
    ensures Advance(Advance(ns, now), now) == Advance(ns, now)
  {
    var once := Advance(ns, now);
    forall i | 0 <= i < |ns| ensures Refresh(once[i], now) == once[i] {
      if now >= ns[i].nextTs {
        NextSpawnRepeat(ns[i].hour, now);
      }
    }
  }

  /** Nodes with the same start hour share one timestamp, and the advance keeps it so:
      a true tie is never split. */
  predicate TiesShared(ns: seq<Occurrence>) {
    forall i, j :: 0 <= i < |ns| && 0 <= j < |ns| && ns[i].hour == ns[j].hour ==> ns[i].nextTs == ns[j].nextTs
  }

  lemma TimedNodesShareTies(rows: seq<Row>, t: real)
    ensures TiesShared(TimedNodes(rows, t))
  {
    TimedNodesScheduled(rows, t);
    var ns := TimedNodes(rows, t);
    assert forall i :: 0 <= i < |ns| ==> ns[i] in ns;
  }

  lemma AdvanceKeepsTies(ns: seq<Occurrence>, now: real)
    requires TiesShared(ns)
    ensures TiesShared(Advance(ns, now))
  {
  }

  /** `min(n['next_ts'] for n in nodes)`. */
  function MinTs(ns: seq<Occurrence>): (m: real)
    requires ns != []
    ensures forall i :: 0 <= i < |ns| ==> m <= ns[i].nextTs
    ensures exists i :: 0 <= i < |ns| && ns[i].nextTs == m
  {
    if |ns| == 1 then ns[0].nextTs
    else
      var rest := MinTs(ns[1..]);
      assert forall i :: 1 <= i < |ns| ==> ns[i] == ns[1..][i - 1];
      if ns[0].nextTs <= rest then ns[0].nextTs else rest
  }

  /** The nodes due exactly at `ts`, in list order. */
  function Upcoming(ns: seq<Occurrence>, ts: real): (up: seq<Occurrence>)
    ensures forall n :: n in up <==> n in ns && n.nextTs == ts
    ensures |up| <= |ns|
  {
    if ns == [] then []
    else
      var front := Upcoming(ns[..|ns| - 1], ts);
      var last := ns[|ns| - 1];
      assert ns == ns[..|ns| - 1] + [last];
      if last.nextTs == ts then front + [last] else front
  }

  /** The soonest group keeps list order and multiplicity: it works piecewise on a
      concatenation, and a single node is kept exactly when it is due at `ts`. */
  lemma {:induction false} UpcomingAppend(a: seq<Occurrence>, b: seq<Occurrence>, ts: real)
    ensures Upcoming(a + b, ts) == Upcoming(a, ts) + Upcoming(b, ts)
    ensures |b| == 1 ==> Upcoming(b, ts) == if b[0].nextTs == ts then b else []
  {
    if b == [] {
      assert a + b == a;
    } else {
      var front, last := b[..|b| - 1], b[|b| - 1];
      var ab := a + b;
      assert ab[..|ab| - 1] == a + front && ab[|ab| - 1] == last;
      UpcomingAppend(a, front, ts);
      var tail := if last.nextTs == ts then [last] else [];
      assert Upcoming(ab, ts) == Upcoming(a + front, ts) + tail;
      assert Upcoming(b, ts) == Upcoming(front, ts) + tail;
      if |b| == 1 {
        assert front == [];
      }
    }
  }

  /** After a tick at `now` the soonest time is never in the past; a tick before the soonest
      time changes nothing, and a tick after it always moves the soonest time. */
  lemma SoonestAfterTick(ns: seq<Occurrence>, now: real)
    requires ns != []
    ensures MinTs(Advance(ns, now)) >= now
    ensures MinTs(ns) > now ==> Advance(ns, now) == ns
    ensures MinTs(ns) < now ==> MinTs(Advance(ns, now)) != MinTs(ns)
  {
    var r := Advance(ns, now);
    var i :| 0 <= i < |r| && r[i].nextTs == MinTs(r);
    assert r[i].nextTs >= now;
    if MinTs(ns) > now {
      assert forall k :: 0 <= k < |ns| ==> ns[k].nextTs > now;
    }
  }

  /** The soonest group of a non-empty list is non-empty. */
  lemma SoonestGroupNonEmpty(ns: seq<Occurrence>)
    requires ns != []
    ensures Upcoming(ns, MinTs(ns)) != []
  {
    var i :| 0 <= i < |ns| && ns[i].nextTs == MinTs(ns);
    assert ns[i] in Upcoming(ns, MinTs(ns));
  }

  /** Two nodes sharing a start hour are either both in the soonest group or both out. */
  lemma TiedNodesGroupTogether(ns: seq<Occurrence>, i: nat, j: nat)
    requires TiesShared(ns) && i < |ns| && j < |ns| && ns[i].hour == ns[j].hour
    ensures ns[i] in Upcoming(ns, MinTs(ns)) <==> ns[j] in Upcoming(ns, MinTs(ns))
  {
  }
}

=== FILE: pings.dfy ===
/**
 * Personal pings: which users are notified on a tick, the one-second window their lead
 * time must fall in, and the once-per-soonest-time guarantee.
 */
module Pings {
  import opened Nodes
  import opened Watchlists

  /** The tracker loop's period, in real seconds. */
  const LoopInterval: real := 1.0

  /** `ping_time >= time_remaining > ping_time - LOOP_INTERVAL`. */
  function InPingWindow(lead: int, remaining: real): (r: bool)
    ensures r <==> lead == -((-remaining).Floor)
  {
    lead as real >= remaining > lead as real - LoopInterval
  }

  /** The names of the nodes, in order. */
  function Names(ns: seq<Occurrence>): (names: seq<string>)
    ensures |names| == |ns|
  {
    seq(|ns|, i requires 0 <= i < |ns| => ns[i].row.name)
  }

  /** The names of the soonest nodes that are on the user's watchlist, in node order
      (duplicates kept). */
  function ItemsToPing(upcoming: seq<Occurrence>, watchlist: seq<string>): (items: seq<string>)
    ensures |items| <= |upcoming|
    ensures forall x :: x in items <==> x in watchlist && x in Names(upcoming)
  {
    if upcoming == [] then []
    else
      var front := ItemsToPing(upcoming[..|upcoming| - 1], watchlist);
      var last := upcoming[|upcoming| - 1];
      assert Names(upcoming) == Names(upcoming[..|upcoming| - 1]) + [last.row.name];
      if last.row.name in watchlist then front + [last.row.name] else front
  }

  /** A user is sent a ping on this tick when their lead time is positive, they have not
      been pinged for the current soonest time, the remaining time is in their window,
      their watchlist is non-empty and some soonest node is on it. */
  function PingDue(user: UserId, lead: int, pinged: set<UserId>, remaining: real,
                    watchlists: map<UserId, seq<string>>, upcoming: seq<Occurrence>): (r: bool)
    ensures r ==> lead > 0 && user !in pinged && lead == -((-remaining).Floor)
    ensures r ==> upcoming != [] && WatchlistOf(watchlists, user) != []
  {
    && lead > 0
    && user !in pinged
    && InPingWindow(lead, remaining)
    && WatchlistOf(watchlists, user) != []
    && ItemsToPing(upcoming, WatchlistOf(watchlists, user)) != []
  }

  /** A due user has a soonest node on their watchlist. */
  lemma PingDueHasWatchedNode(user: UserId, lead: int, pinged: set<UserId>, remaining: real,
                              watchlists: map<UserId, seq<string>>, upcoming: seq<Occurrence>)
    requires PingDue(user, lead, pinged, remaining, watchlists, upcoming)
    ensures exists i :: 0 <= i < |upcoming| && upcoming[i].row.name in WatchlistOf(watchlists, user)
  {
    var items := ItemsToPing(upcoming, WatchlistOf(watchlists, user));
    assert items[0] in Names(upcoming);
    var i :| 0 <= i < |upcoming| && Names(upcoming)[i] == items[0];
  }

  /** Whether a user is due depends on the pinged set only through the user's own entry. */
  lemma PingDueOwnEntry(user: UserId, lead: int, a: set<UserId>, b: set<UserId>, remaining: real,
                        watchlists: map<UserId, seq<string>>, upcoming: seq<Occurrence>)
    requires user in a <==> user in b
    ensures PingDue(user, lead, a, remaining, watchlists, upcoming) == PingDue(user, lead, b, remaining, watchlists, upcoming)
  {
  }

  /** The users with a ping setting who are due on this tick. */
  function DueUsers(pings: map<UserId, int>, pinged: set<UserId>, remaining: real,
                    watchlists: map<UserId, seq<string>>, upcoming: seq<Occurrence>): set<UserId>
  {
    set u | u in pings && PingDue(u, pings[u], pinged, remaining, watchlists, upcoming)
  }

  /** A ping message: who, for which items, and the lead time it announces (it deletes
      itself `lead + 5` seconds after sending). */
  datatype Ping = Ping(user: UserId, items: seq<string>, lead: int)

  /** The message for `user`: the soonest items on their watchlist and their lead time. */
  function MessageFor(user: UserId, pings: map<UserId, int>, watchlists: map<UserId, seq<string>>,
                      upcoming: seq<Occurrence>): (p: Ping)
    requires user in pings
    ensures p.user == user && p.lead == pings[user]
  {
    Ping(user, ItemsToPing(upcoming, WatchlistOf(watchlists, user)), pings[user])
  }

  /** The messages for a set of users. */
  function Messages(users: set<UserId>, pings: map<UserId, int>, watchlists: map<UserId, seq<string>>,
                    upcoming: seq<Occurrence>): set<Ping>
    requires users <= pings.Keys
  {
    set u | u in users :: MessageFor(u, pings, watchlists, upcoming)
  }

  lemma MessagesAdd(users: set<UserId>, u: UserId, pings: map<UserId, int>, watchlists: map<UserId, seq<string>>,
                    upcoming: seq<Occurrence>)
    requires users <= pings.Keys && u in pings
    ensures Messages(users + {u}, pings, watchlists, upcoming) ==
            Messages(users, pings, watchlists, upcoming) + {MessageFor(u, pings, watchlists, upcoming)}
  {
  }

  /** Visiting one more user of the pending set `todo` moves it into the visited part of `a`. */
  lemma VisitOne(a: set<UserId>, todo: set<UserId>, u: UserId)
    requires u in todo
    ensures a - (todo - {u}) == if u in a then (a - todo) + {u} else a - todo
  {
  }

  /** The messages sent on one tick, one per due user. */
  function PingsFor(pings: map<UserId, int>, pinged: set<UserId>, remaining: real,
                    watchlists: map<UserId, seq<string>>, upcoming: seq<Occurrence>): set<Ping>
  {
    Messages(DueUsers(pings, pinged, remaining, watchlists, upcoming), pings, watchlists, upcoming)
  }

  /** Exactly the due users get a message; each announces the user's own lead time and
      names only soonest items on the user's watchlist, at least one of them. */
  lemma PingsForSpec(pings: map<UserId, int>, pinged: set<UserId>, remaining: real,
                     watchlists: map<UserId, seq<string>>, upcoming: seq<Occurrence>)
    ensures var ps := PingsFor(pings, pinged, remaining, watchlists, upcoming);
            var due := DueUsers(pings, pinged, remaining, watchlists, upcoming);
            && (forall u :: u in due ==> MessageFor(u, pings, watchlists, upcoming) in ps)
            && (forall p :: p in ps ==>
                  && p.user in due && p.lead == pings[p.user] && p.lead > 0 && p.items != []
                  && p.user !in pinged
                  && forall x :: x in p.items ==> x in WatchlistOf(watchlists, p.user) && x in Names(upcoming))
  {
  }

  /** The remaining time `ticks` loop periods after `start`. */
  function RemainingAfter(start: real, ticks: int): real {
    start - ticks as real * LoopInterval
  }

  /** With the remaining time dropping by exactly one loop period per tick, starting
      anywhere above the window's lower edge, exactly one tick lands in the window. */
  lemma WindowHit(lead: int, start: real) returns (k: nat)
    requires start > lead as real - LoopInterval
    ensures InPingWindow(lead, RemainingAfter(start, k))
    ensures forall j: int :: InPingWindow(lead, RemainingAfter(start, j)) ==> j == k
  {
    var f := (lead as real - start).Floor;
    assert f as real <= lead as real - start < f as real + 1.0;
    k := -f;
    forall j: int | InPingWindow(lead, RemainingAfter(start, j)) ensures j == k {
      assert j as real >= start - lead as real > j as real - 1.0;
    }
  }

  /** A tick that is late by half a second skips the window altogether: with a 60 s
      lead, remaining times 60.5 and then 59.0 both fall outside it. */
  lemma LateTickMissesWindow()
    ensures !InPingWindow(60, 60.5) && !InPingWindow(60, 59.0)
  {
  }

  /** A user with a zero or negative lead is never pinged. */
  lemma NonPositiveLeadNeverDue(user: UserId, lead: int, pinged: set<UserId>, remaining: real,
                                watchlists: map<UserId, seq<string>>, upcoming: seq<Occurrence>)
    requires lead <= 0
    ensures !PingDue(user, lead, pinged, remaining, watchlists, upcoming)
  {
  }

  /** One tick of the ping check as it sees the world: the remaining time, the soonest
      nodes, the ping and watchlist tables as they stand, and which sends succeed. */
  datatype PingTick = PingTick(remaining: real, upcoming: seq<Occurrence>, pings: map<UserId, int>,
                               watchlists: map<UserId, seq<string>>, delivered: set<UserId>)

  /** The pinged set after one tick: due users whose message went out are added;
      a failed send leaves the user to be tried again. */
  function PingedAfter(pinged: set<UserId>, t: PingTick): (after: set<UserId>)
    ensures pinged <= after
    ensures forall u :: u in after - pinged ==> u in t.delivered && u in t.pings
    ensures after - pinged <= DueUsers(t.pings, pinged, t.remaining, t.watchlists, t.upcoming)
  {
    pinged + (DueUsers(t.pings, pinged, t.remaining, t.watchlists, t.upcoming) * t.delivered)
  }

  /** How many pings reach `user` over a run of ticks in which the soonest time stays
      the same (so the pinged set is never cleared). */
  function DeliveredTo(user: UserId, pinged: set<UserId>, ticks: seq<PingTick>): nat
    decreases |ticks|
  {
    if ticks == [] then 0
    else
      var t := ticks[0];
      var due := DueUsers(t.pings, pinged, t.remaining, t.watchlists, t.upcoming);
      (if user in due && user in t.delivered then 1 else 0) + DeliveredTo(user, PingedAfter(pinged, t), ticks[1..])
  }

  /** Within one soonest time a user receives at most one ping, and none once pinged. */
  lemma {:induction false} AtMostOncePerEpoch(user: UserId, pinged: set<UserId>, ticks: seq<PingTick>)
    ensures DeliveredTo(user, pinged, ticks) <= (if user in pinged then 0 else 1)
    decreases |ticks|
  {
    if ticks != [] {
      var t := ticks[0];
      var after := PingedAfter(pinged, t);
      AtMostOncePerEpoch(user, after, ticks[1..]);
      var due := DueUsers(t.pings, pinged, t.remaining, t.watchlists, t.upcoming);
      if user in due && user in t.delivered {
        assert user in after;
      }
    }
  }
}

=== FILE: text.dfy ===
/**
 * The few Python string operations the core relies on: `str.strip`, `str.split`,
 * `str.replace` of one character, `str.isdigit` / `int` on digit strings, string
 * ordering and `sorted(set(...))` of a list of strings.
 */
module Text {

  /** The characters Python's `str.isspace` accepts, which `str.strip()` removes. */
  const Whitespace: set<char> := {
    ' ', '\t', '\n', '\r', '\U{000B}', '\U{000C}', '\U{001C}', '\U{001D}', '\U{001E}', '\U{001F}',
    '\U{0085}', '\U{00A0}', '\U{1680}', '\U{2000}', '\U{2001}', '\U{2002}', '\U{2003}', '\U{2004}',
    '\U{2005}', '\U{2006}', '\U{2007}', '\U{2008}', '\U{2009}', '\U{200A}', '\U{2028}', '\U{2029}',
    '\U{202F}', '\U{205F}', '\U{3000}'
  }

  /** Leading characters in `cs` removed. */
  function StripLeft(s: string, cs: set<char>): (r: string)
    ensures |r| <= |s|
    ensures r != [] ==> r[0] !in cs
    decreases |s|
  {
    if |s| > 0 && s[0] in cs then StripLeft(s[1..], cs) else s
  }

  /** Trailing characters in `cs` removed. */
  function StripRight(s: string, cs: set<char>): (r: string)
    ensures |r| <= |s|
    ensures r != [] ==> r[|r| - 1] !in cs
    decreases |s|
  {
    if |s| > 0 && s[|s| - 1] in cs then StripRight(s[..|s| - 1], cs) else s
  }

  /** `StripLeft` keeps a suffix and drops only characters of `cs`. */
  lemma {:induction false} StripLeftSuffix(s: string, cs: set<char>)
    ensures StripLeft(s, cs) == s[|s| - |StripLeft(s, cs)|..]
    ensures forall k :: 0 <= k < |s| - |StripLeft(s, cs)| ==> s[k] in cs
    decreases |s|
  {
    if |s| > 0 && s[0] in cs {
      StripLeftSuffix(s[1..], cs);
      assert s[1..][|s| - 1 - |StripLeft(s, cs)|..] == s[|s| - |StripLeft(s, cs)|..];
    }
  }

  /** `StripRight` keeps a prefix and drops only characters of `cs`. */
  lemma {:induction false} StripRightPrefix(s: string, cs: set<char>)
    ensures StripRight(s, cs) == s[..|StripRight(s, cs)|]
    ensures forall k :: |StripRight(s, cs)| <= k < |s| ==> s[k] in cs
    decreases |s|
  {
    if |s| > 0 && s[|s| - 1] in cs {
      StripRightPrefix(s[..|s| - 1], cs);
      assert s[..|s| - 1][..|StripRight(s, cs)|] == s[..|StripRight(s, cs)|];
    }
  }

  /** `s.strip(chars)`: leading and trailing characters in `cs` removed. */
  function StripChars(s: string, cs: set<char>): (r: string)
    ensures |r| <= |s|
    ensures r != [] ==> r[0] !in cs && r[|r| - 1] !in cs
  {
    var l := StripLeft(s, cs);
    StripRightPrefix(l, cs);
    StripRight(l, cs)
  }

  /** `StripChars` keeps exactly a middle slice of `s`: what it drops at either end is in
      `cs`, and what it keeps neither starts nor ends with a character of `cs`. */
  lemma StripCharsSlice(s: string, cs: set<char>) returns (i: nat, j: nat)
    ensures i <= j <= |s| && StripChars(s, cs) == s[i..j]
    ensures forall k :: 0 <= k < i ==> s[k] in cs
    ensures forall k :: j <= k < |s| ==> s[k] in cs
    ensures StripChars(s, cs) != [] ==> StripChars(s, cs)[0] !in cs && StripChars(s, cs)[j - i - 1] !in cs
  {
    var l := StripLeft(s, cs);
    var r := StripRight(l, cs);
    StripLeftSuffix(s, cs);
    StripRightPrefix(l, cs);
    i := |s| - |l|;
    j := i + |r|;
    assert l == s[i..];
    assert r == l[..|r|];
    assert r == s[i..j];
    forall k | j <= k < |s| ensures s[k] in cs {
      assert s[k] == l[k - i];
    }
  }

  /** `s.replace(a, b)` for single characters. */
  function ReplaceChar(s: string, a: char, b: char): (r: string)
    ensures |r| == |s|
  {
    seq(|s|, k requires 0 <= k < |s| => if s[k] == a then b else s[k])
  }

  /** `s.split(sep)`: the pieces between separators, at least one. */
  function Split(s: string, sep: char): (parts: seq<string>)
    ensures |parts| >= 1
  {
    if s == [] then [""]
    else
      var rest := Split(s[1..], sep);
      if s[0] == sep then [""] + rest else [[s[0]] + rest[0]] + rest[1..]
  }

  /** `sep.join(parts)`. */
  function Join(parts: seq<string>, sep: char): string
    requires |parts| >= 1
  {
    if |parts| == 1 then parts[0] else parts[0] + [sep] + Join(parts[1..], sep)
  }

  /** Splitting loses nothing: joining the pieces back gives the input. */
  lemma {:induction false} JoinSplit(s: string, sep: char)
    ensures Join(Split(s, sep), sep) == s
  {
    if s != [] {
      var c := s[0];
      var rest := Split(s[1..], sep);
      JoinSplit(s[1..], sep);
      assert s == [c] + s[1..];
      if c != sep {
        SplitCons(c, s[1..], sep);
        var parts := [[c] + rest[0]] + rest[1..];
        JoinCons(parts, sep);
        assert parts[0][1..] == rest[0];
        assert [parts[0][1..]] + parts[1..] == rest;
      } else {
        assert ([""] + rest)[1..] == rest;
      }
    }
  }

  /** No piece of a split holds the separator. */
  lemma {:induction false} SplitPiecesFree(s: string, sep: char)
    ensures forall k :: 0 <= k < |Split(s, sep)| ==> sep !in Split(s, sep)[k]
  {
    if s != [] {
      var rest := Split(s[1..], sep);
      SplitPiecesFree(s[1..], sep);
      if s[0] != sep {
        var parts := [[s[0]] + rest[0]] + rest[1..];
        forall k | 0 <= k < |parts| ensures sep !in parts[k] {
          if k > 0 {
            assert parts[k] == rest[k];
          }
        }
      } else {
        forall k | 0 <= k < |[""] + rest| ensures sep !in ([""] + rest)[k] {
          if k > 0 {
            assert ([""] + rest)[k] == rest[k - 1];
          }
        }
      }
    }
  }

  /** A split of a string starting with a non-separator puts it in front of the first piece. */
  lemma SplitCons(c: char, t: string, sep: char)
    requires c != sep
    ensures Split([c] + t, sep) == [[c] + Split(t, sep)[0]] + Split(t, sep)[1..]
  {
    assert ([c] + t)[1..] == t;
  }

  /** Joining with a non-empty first piece starts with that piece's first character. */
  lemma JoinCons(parts: seq<string>, sep: char)
    requires |parts| >= 1 && parts[0] != []
    ensures Join(parts, sep) == [parts[0][0]] + Join([parts[0][1..]] + parts[1..], sep)
  {
    var shorter := [parts[0][1..]] + parts[1..];
    assert parts[0] == [parts[0][0]] + parts[0][1..];
    if |parts| > 1 {
      assert shorter[1..] == parts[1..];
    }
  }

  /** And splitting a join of separator-free pieces gives the pieces back. */
  lemma {:induction false} SplitJoin(parts: seq<string>, sep: char)
    requires |parts| >= 1
    requires forall k :: 0 <= k < |parts| ==> sep !in parts[k]
    ensures Split(Join(parts, sep), sep) == parts
    decreases |parts|, |parts[0]|
  {
    if |parts| == 1 {
      SplitOfPiece(parts[0], sep);
    } else if parts[0] == [] {
      var tail := Join(parts[1..], sep);
      assert Join(parts, sep) == [sep] + tail;
      assert ([sep] + tail)[1..] == tail;
      SplitJoin(parts[1..], sep);
      assert [parts[0]] + parts[1..] == parts;
    } else {
      var c := parts[0][0];
      var shorter := [parts[0][1..]] + parts[1..];
      forall k | 0 <= k < |shorter| ensures sep !in shorter[k] {
        if k == 0 {
          assert parts[0] == [c] + shorter[0];
        } else {
          assert shorter[k] == parts[k];
        }
      }
      SplitJoin(shorter, sep);
      JoinCons(parts, sep);
      SplitCons(c, Join(shorter, sep), sep);
      assert [c] + shorter[0] == parts[0];
      assert [parts[0]] + shorter[1..] == parts;
    }
  }

  lemma {:induction false} SplitOfPiece(s: string, sep: char)
    requires sep !in s
    ensures Split(s, sep) == [s]
  {
    if s != [] {
      SplitOfPiece(s[1..], sep);
      assert s == [s[0]] + s[1..];
    }
  }

  predicate IsDigit(c: char) {
    '0' <= c <= '9'
  }

  /** `s.isdigit()` for ASCII digits: non-empty and only digits. */
  predicate IsAllDigits(s: string) {
    |s| > 0 && forall k :: 0 <= k < |s| ==> IsDigit(s[k])
  }

  /** `int(s)` of a digit string. */
  function DigitsValue(s: string): nat
    requires forall k :: 0 <= k < |s| ==> IsDigit(s[k])
  {
    if s == [] then 0
    else
      var last := s[|s| - 1];
      assert IsDigit(last);
      DigitsValue(s[..|s| - 1]) * 10 + (last as int - '0' as int)
  }

  /** Python's `<` on strings: lexicographic by code point, a proper prefix first. */
  predicate Less(a: string, b: string)
    decreases |a|
  {
    |b| > 0 && (|a| == 0 || a[0] < b[0] || (a[0] == b[0] && Less(a[1..], b[1..])))
  }

  lemma {:induction false} LessIrreflexive(a: string)
    ensures !Less(a, a)
    decreases |a|
  {
    if |a| > 0 {
      LessIrreflexive(a[1..]);
    }
  }

  lemma {:induction false} LessTransitive(a: string, b: string, c: string)
    requires Less(a, b) && Less(b, c)
    ensures Less(a, c)
    decreases |a|
  {
    if |a| > 0 && a[0] == b[0] && b[0] == c[0] {
      LessTransitive(a[1..], b[1..], c[1..]);
    }
  }

  lemma {:induction false} LessTotal(a: string, b: string)
    ensures a == b || Less(a, b) || Less(b, a)
    decreases |a|
  {
    if |a| > 0 && |b| > 0 && a[0] == b[0] {
      LessTotal(a[1..], b[1..]);
      if a[1..] == b[1..] {
        assert a == [a[0]] + a[1..] && b == [b[0]] + b[1..];
      }
    }
  }

  predicate StrictlySorted(s: seq<string>) {
    forall i, j :: 0 <= i < j < |s| ==> Less(s[i], s[j])
  }

  /** Inserts `x` into a strictly sorted list, skipping it when already present. */
  function InsertSorted(x: string, s: seq<string>): (r: seq<string>)
    requires StrictlySorted(s)
    ensures StrictlySorted(r)
    ensures forall y :: y in r <==> y in s || y == x
  {
    if s == [] then [x]
    else if x == s[0] then s
    else if Less(x, s[0]) then
      assert forall j :: 0 < j < |s| ==> Less(x, s[j]) by {
        forall j | 0 < j < |s| ensures Less(x, s[j]) {
          LessTransitive(x, s[0], s[j]);
        }
      }
      [x] + s
    else
      LessTotal(x, s[0]);
      var rest := InsertSorted(x, s[1..]);
      assert forall y :: y in rest ==> Less(s[0], y);
      [s[0]] + rest
  }

  /** `sorted(set(s))`: the distinct elements of `s` in increasing order. */
  function SortedSet(s: seq<string>): (r: seq<string>)
    ensures StrictlySorted(r)
    ensures forall y :: y in r <==> y in s
  {
    if s == [] then [] else InsertSorted(s[0], SortedSet(s[1..]))
  }

  /** A strictly sorted list is determined by its elements, so `SortedSet(s)` is THE
      increasing enumeration of the set of `s`. */
  lemma {:induction false} SortedUnique(a: seq<string>, b: seq<string>)
    requires StrictlySorted(a) && StrictlySorted(b)
    requires forall y :: y in a <==> y in b
    ensures a == b
    decreases |a|
  {
    assert |b| > 0 ==> b[0] in a;
    if a != [] {
      assert b != [] by { assert a[0] in b; }
      if a[0] != b[0] {
        LessTotal(a[0], b[0]);
        assert a[0] in b && b[0] in a;
        var i :| 0 <= i < |b| && b[i] == a[0];
        var j :| 0 <= j < |a| && a[j] == b[0];
        if Less(a[0], b[0]) {
          assert i > 0;
          LessTransitive(a[0], b[0], a[0]);
          LessIrreflexive(a[0]);
        }
      }
      forall y ensures y in a[1..] <==> y in b[1..] {
        if y in a[1..] {
          var k :| 1 <= k < |a| && a[k] == y;
          assert Less(a[0], y);
          LessIrreflexive(y);
          assert y in b;
        }
        if y in b[1..] {
          var k :| 1 <= k < |b| && b[k] == y;
          assert Less(b[0], y);
          LessIrreflexive(y);
          assert y in a;
        }
      }
      SortedUnique(a[1..], b[1..]);
      assert a == [a[0]] + a[1..] && b == [b[0]] + b[1..];
    }
  }
}

=== FILE: tracker.dfy ===
/**
 * One running tracker in one channel: it builds its node list when started, and on each
 * loop tick advances elapsed nodes, resets and sends personal pings, and decides
 * whether to refresh its display.
 */
module Tracker {
  import opened Wrappers
  import opened Clock
  import opened Nodes
  import opened Cadence
  import opened Watchlists
  import opened Pings
  import opened Display

  /** What `start` reports: nothing to track (the message depends on the track-all flag),
      the first display could not be sent, or the first display that was sent. */
  datatype StartOutcome = NothingToTrack(trackAll: bool) | SendFailed | Started(first: Embed)

  /** What one loop iteration does: nothing on an empty node list, otherwise the pings it
      sends and the display it shows, if it refreshes. */
  datatype TickReport = Idle | Ticked(sent: set<Ping>, display: Option<Embed>)

  /** The refreshed display of a tick, if the cadence rule asks for one. */
  function TickDisplay(title: TitleMode, epochChanged: bool, upcoming: seq<Occurrence>, remaining: real,
                       now: real, last: real): (d: Option<Embed>)
    ensures d.Some? <==> ShouldRefresh(epochChanged, remaining, now, last)
    ensures d.Some? ==> d.value.title == title && FieldCount(d.value) <= MaxEmbedFields
    ensures d.Some? && upcoming == [] ==> d.value.colour == Greyple && FieldCount(d.value) == 0
    ensures d.Some? && upcoming != [] ==>
              && d.value.headline.Some? && d.value.headline.value.startEt == upcoming[0].row.startEt
              && (d.value.headline.value.minutes, d.value.headline.value.seconds) == FormatTimeDelta(remaining)
              && d.value.colour == EmbedColour(remaining)
              && (d.value.fields, d.value.omitted) == CapGroups(Grouped(upcoming))
  {
    if ShouldRefresh(epochChanged, remaining, now, last)
    then Some(BuildEmbed(title, upcoming, Grouped(upcoming), remaining))
    else None
  }

  class TrackerInstance {
    const author: UserId
    const trackAll: bool
    /** The author's watchlist when the tracker was created. */
    const watchlist: seq<string>
    /** `monitored_nodes`. */
    var nodes: seq<Occurrence>
    /** `pinged_users_this_spawn`. */
    var pinged: set<UserId>
    /** The loop's `last_update_time`. */
    var lastUpdate: real
    /** Whether the background loop task exists. */
    var running: bool
    /** Whether the tracker's display message exists. */
    var hasMessage: bool

    constructor(author: UserId, trackAll: bool, watchlist: seq<string>)
      ensures this.author == author && this.trackAll == trackAll && this.watchlist == watchlist
      ensures nodes == [] && pinged == {} && !running && !hasMessage
    {
      this.author := author;
      this.trackAll := trackAll;
      this.watchlist := watchlist;
      nodes := [];
      pinged := {};
      lastUpdate := 0.0;
      running := false;
      hasMessage := false;
    }

    function TitleMode(): TitleMode {
      Title(trackAll, watchlist)
    }

    /** `_prepare_monitored_nodes`: the timed nodes at `t`, narrowed to the watchlist unless
        tracking all or the watchlist is empty. */
    method Prepare(rows: seq<Row>, t: real)
      modifies `nodes
      ensures nodes == Monitored(TimedNodes(rows, t), trackAll, watchlist)
    {
      var full := CollectTimed(rows, t);
      nodes := Monitored(full, trackAll, watchlist);
    }

    /** `_build_first_embed`: the display of the soonest group at `t`. */
    method FirstEmbed(t: real) returns (e: Embed)
      requires nodes != []
      ensures e == SoonestEmbed(TitleMode(), nodes, t)
    {
      SoonestGroupNonEmpty(nodes);
      var soonest := MinTs(nodes);
      var upcoming := Upcoming(nodes, soonest);
      var groups := GroupEvents(upcoming);
      e := BuildEmbed(TitleMode(), upcoming, groups, soonest - t);
    }

    /** `start`: builds the monitored list at `prepareTime`; when it is non-empty, sends the
        first display built at `embedTime` and, if that send goes through, starts the loop. */
    method Start(rows: seq<Row>, prepareTime: real, embedTime: real, sendOk: bool) returns (outcome: StartOutcome)
      modifies `nodes, `running, `hasMessage
      ensures nodes == Monitored(TimedNodes(rows, prepareTime), trackAll, watchlist)
      ensures nodes == [] ==> outcome == NothingToTrack(trackAll)
      ensures nodes != [] && !sendOk ==> outcome == SendFailed
      ensures nodes != [] && sendOk ==> outcome == Started(SoonestEmbed(TitleMode(), nodes, embedTime))
      ensures outcome.Started? ==> running && hasMessage
      ensures !outcome.Started? ==> running == old(running) && hasMessage == old(hasMessage)
    {
      Prepare(rows, prepareTime);
      if nodes == [] {
        return NothingToTrack(trackAll);
      }
      var first := FirstEmbed(embedTime);
      if !sendOk {
        return SendFailed;
      }
      hasMessage := true;
      running := true;
      outcome := Started(first);
    }

    /** The loop's first reading of the wall clock (taken without the manual offset). */
    method BeginLoop(wallClock: real)
      modifies `lastUpdate
      ensures lastUpdate == wallClock
    {
      lastUpdate := wallClock;
    }

    /** The body of `_check_and_send_pings` for one user: a due user is sent a message and,
        if it went out, marked as pinged. */
    method PingUser(u: UserId, upcoming: seq<Occurrence>, remaining: real, pings: map<UserId, int>,
                    watchlists: map<UserId, seq<string>>, sendOk: set<UserId>) returns (msg: Option<Ping>)
      requires u in pings
      modifies `pinged
      ensures msg.Some? <==> PingDue(u, pings[u], old(pinged), remaining, watchlists, upcoming)
      ensures msg.Some? ==> msg.value == MessageFor(u, pings, watchlists, upcoming)
      ensures pinged == if msg.Some? && u in sendOk then old(pinged) + {u} else old(pinged)
    {
      msg := None;
      var lead := pings[u];
      if lead > 0 && u !in pinged && InPingWindow(lead, remaining) {
        var wl := WatchlistOf(watchlists, u);
        if wl != [] {
          var items := ItemsToPing(upcoming, wl);
          if items != [] {
            msg := Some(Ping(u, items, lead));
            if u in sendOk {
              pinged := pinged + {u};
            }
          }
        }
      }
    }

    /** `_check_and_send_pings`: one pass over the ping table. Every due user is sent a
        message; those whose message went out are marked as pinged. */
    method CheckAndSendPings(upcoming: seq<Occurrence>, remaining: real, pings: map<UserId, int>,
                             watchlists: map<UserId, seq<string>>, sendOk: set<UserId>) returns (sent: set<Ping>)
      modifies `pinged
      ensures sent == PingsFor(pings, old(pinged), remaining, watchlists, upcoming)
      ensures pinged == PingedAfter(old(pinged), PingTick(remaining, upcoming, pings, watchlists, sendOk))
    {
      ghost var p0 := pinged;
      ghost var due := DueUsers(pings, p0, remaining, watchlists, upcoming);
      var todo := pings.Keys;
      sent := {};
      while todo != {}
        invariant todo <= pings.Keys
        invariant pinged == p0 + (due * sendOk - todo)
        invariant sent == Messages(due - todo, pings, watchlists, upcoming)
        decreases |todo|
      {
        var u :| u in todo;
        PingDueOwnEntry(u, pings[u], pinged, p0, remaining, watchlists, upcoming);
        var msg := PingUser(u, upcoming, remaining, pings, watchlists, sendOk);
        if msg.Some? {
          sent := sent + {msg.value};
        }
        assert sent == Messages(due - (todo - {u}), pings, watchlists, upcoming) by {
          VisitOne(due, todo, u);
          if u in due {
            MessagesAdd(due - todo, u, pings, watchlists, upcoming);
          }
        }
        assert pinged == p0 + (due * sendOk - (todo - {u})) by {
          VisitOne(due * sendOk, todo, u);
        }
        todo := todo - {u};
      }
    }

    /** The ping step of the loop: a new soonest time clears the pinged set first. */
    method PingPhase(epochChanged: bool, upcoming: seq<Occurrence>, remaining: real, pings: map<UserId, int>,
                     watchlists: map<UserId, seq<string>>, sendOk: set<UserId>) returns (sent: set<Ping>)
      modifies `pinged
      ensures var kept := if epochChanged then {} else old(pinged);
              && sent == PingsFor(pings, kept, remaining, watchlists, upcoming)
              && pinged == PingedAfter(kept, PingTick(remaining, upcoming, pings, watchlists, sendOk))
    {
      if epochChanged {
        pinged := {};
      }
      sent := CheckAndSendPings(upcoming, remaining, pings, watchlists, sendOk);
    }

    /** The refresh step of the loop: when the cadence rule says so, records the refresh
        time and builds the display of the soonest group. */
    method RefreshDisplay(epochChanged: bool, upcoming: seq<Occurrence>, remaining: real, now: real)
      returns (display: Option<Embed>)
      modifies `lastUpdate
      ensures display == TickDisplay(TitleMode(), epochChanged, upcoming, remaining, now, old(lastUpdate))
      ensures lastUpdate == if display.Some? then now else old(lastUpdate)
    {
      display := None;
      if ShouldRefresh(epochChanged, remaining, now, lastUpdate) {
        lastUpdate := now;
        var groups := GroupEvents(upcoming);
        display := Some(BuildEmbed(TitleMode(), upcoming, groups, remaining));
      }
    }

    /** One iteration of `tracker_loop` at instant `now`, with the live ping and watchlist
        tables and the set of users whose ping sends succeed. Besides its report it returns
        what the iteration worked from: whether the soonest time changed, the soonest nodes
        and the time remaining to them. */
    method Tick(now: real, pings: map<UserId, int>, watchlists: map<UserId, seq<string>>, sendOk: set<UserId>)
      returns (report: TickReport, changed: bool, upcoming: seq<Occurrence>, remaining: real)
      modifies `nodes, `pinged, `lastUpdate
      ensures old(nodes) == [] ==>
                report == Idle && nodes == old(nodes) && pinged == old(pinged) && lastUpdate == old(lastUpdate)
      ensures old(nodes) != [] ==>
                && nodes == Advance(old(nodes), now)
                && remaining == MinTs(nodes) - now
                && upcoming == Upcoming(nodes, MinTs(nodes))
                && changed == (MinTs(old(nodes)) != MinTs(nodes))
      ensures old(nodes) != [] ==>
                var kept := if changed then {} else old(pinged);
                var display := TickDisplay(TitleMode(), changed, upcoming, remaining, now, old(lastUpdate));
                && pinged == PingedAfter(kept, PingTick(remaining, upcoming, pings, watchlists, sendOk))
                && report == Ticked(PingsFor(pings, kept, remaining, watchlists, upcoming), display)
                && lastUpdate == if display.Some? then now else old(lastUpdate)
    {
      if nodes == [] {
        return Idle, false, [], 0.0;
      }
      var before := MinTs(nodes);
      nodes := AdvanceAll(nodes, now);
      var after := MinTs(nodes);
      remaining := after - now;
      upcoming := Upcoming(nodes, after);
      changed := before != after;
      var sent := PingPhase(changed, upcoming, remaining, pings, watchlists, sendOk);
      var display := RefreshDisplay(changed, upcoming, remaining, now);
      report := Ticked(sent, display);
    }

    /** `stop`: cancels the loop and deletes the display message. */
    method Stop()
      modifies `running, `hasMessage
      ensures !running && !hasMessage
    {
      running := false;
      hasMessage := false;
    }
  }
}

=== FILE: watchlists.dfy ===
/**
 * The per-user tables the manager keeps: watchlists (user -> list of item names) and
 * ping lead times (user -> seconds), and what the add / remove / copy / set commands
 * do to them.
 */
module Watchlists {
  import opened Text

  /** A Discord user id; the tables key it as `str(user_id)`. */
  type UserId = nat

  /** `get_watchlist`: the user's list, or the empty list. */
  function WatchlistOf(lists: map<UserId, seq<string>>, user: UserId): seq<string> {
    if user in lists then lists[user] else []
  }

  /** `get_ping_for_user`: the user's lead time, or -1 when none is set. */
  function PingOf(pings: map<UserId, int>, user: UserId): (lead: int)
    ensures user in pings ==> lead == pings[user]
    ensures lead == -1 <==> user !in pings || pings[user] == -1
  {
    if user in pings then pings[user] else -1
  }

  /** `set_ping_for_user`'s effect on the table: -1 removes the entry, any other value
      is stored. */
  function PingsAfterSet(pings: map<UserId, int>, user: UserId, seconds: int): map<UserId, int> {
    if seconds == -1 then pings - {user} else pings[user := seconds]
  }

  /** Setting then getting gives back what was set, for every value including -1 (off),
      and no other user's entry changes. */
  lemma SetThenGet(pings: map<UserId, int>, user: UserId, seconds: int, other: UserId)
    ensures PingOf(PingsAfterSet(pings, user, seconds), user) == seconds
    ensures other != user ==> PingOf(PingsAfterSet(pings, user, seconds), other) == PingOf(pings, other)
  {
  }

  predicate NoDup(s: seq<string>) {
    forall i, j :: 0 <= i < j < |s| ==> s[i] != s[j]
  }

  /** The fullwidth comma `，` that the commands accept as a separator. */
  const FullwidthComma: char := '\U{FF0C}'

  /** `items_str.replace('，', ',').split(',')`. */
  function SplitItems(items: string): seq<string> {
    Split(ReplaceChar(items, FullwidthComma, ','), ',')
  }

  /** The `.strip('"').strip("'")` part of an item's cleaning. */
  function Unquote(s: string): (r: string)
    ensures |r| <= |s|
  {
    StripChars(StripChars(s, {'"'}), {'\''})
  }

  /** `item.strip().strip('"').strip("'").strip()`: never longer than the raw item, and
      neither starts nor ends with whitespace. */
  function CleanItem(item: string): (c: string)
    ensures |c| <= |item|
    ensures c != [] ==> c[0] !in Whitespace && c[|c| - 1] !in Whitespace
  {
    var trimmed := StripChars(item, Whitespace);
    var unquoted := Unquote(trimmed);
    StripChars(unquoted, Whitespace)
  }

  /** The cleaned items of a split command argument, in order (empty ones included;
      the loops skip them). */
  function CleanAll(raws: seq<string>): (items: seq<string>)
    ensures |items| == |raws|
  {
    if raws == [] then [] else CleanAll(raws[..|raws| - 1]) + [CleanItem(raws[|raws| - 1])]
  }

  /** Each item is cleaned on its own. */
  lemma {:induction false} CleanAllAt(raws: seq<string>, k: nat)
    requires k < |raws|
    ensures CleanAll(raws)[k] == CleanItem(raws[k])
  {
    if k < |raws| - 1 {
      var front := raws[..|raws| - 1];
      CleanAllAt(front, k);
      assert front[k] == raws[k];
    }
  }

  /** The non-empty items, as a set. */
  function NonEmpty(items: seq<string>): (cs: set<string>)
    ensures "" !in cs
    ensures forall c :: c in cs <==> c in items && c != ""
  {
    set c | c in items && c != ""
  }

  /** The working state of `add_to_watchlist`: the list and the three report lists. */
  datatype AddState = AddState(list: seq<string>, added: seq<string>, existing: seq<string>, notFound: seq<string>)

  /** One (cleaned) item of `add_to_watchlist`'s loop. */
  function AddStep(st: AddState, item: string, known: set<string>): AddState {
    if item == "" then st
    else if item in st.list then st.(existing := st.existing + [item])
    else if item in known then st.(list := st.list + [item], added := st.added + [item])
    else st.(notFound := st.notFound + [item])
  }

  /** The whole loop over the cleaned items, starting from `list`. */
  function AddAll(list: seq<string>, items: seq<string>, known: set<string>): (st: AddState)
    ensures st.list == list + st.added
    ensures |st.added| + |st.existing| + |st.notFound| <= |items|
  {
    if items == [] then AddState(list, [], [], [])
    else AddStep(AddAll(list, items[..|items| - 1], known), items[|items| - 1], known)
  }

  lemma NonEmptyPrefix(items: seq<string>)
    requires items != []
    ensures NonEmpty(items) == NonEmpty(items[..|items| - 1]) +
              (if items[|items| - 1] == "" then {} else {items[|items| - 1]})
  {
    assert items == items[..|items| - 1] + [items[|items| - 1]];
  }

  /** Adding only appends, and appends only new known names, each once, so a list
      without duplicates stays without duplicates. */
  lemma {:induction false} AddAppendsNewKnown(list: seq<string>, items: seq<string>, known: set<string>)
    ensures AddAll(list, items, known).list == list + AddAll(list, items, known).added
    ensures forall x :: x in AddAll(list, items, known).added ==> x in known && x !in list && x in NonEmpty(items)
    ensures NoDup(AddAll(list, items, known).added)
    ensures NoDup(list) ==> NoDup(AddAll(list, items, known).list)
  {
    if items != [] {
      var front := items[..|items| - 1];
      AddAppendsNewKnown(list, front, known);
      NonEmptyPrefix(items);
      var st := AddAll(list, front, known);
      var item := items[|items| - 1];
      if item != "" && item !in st.list && item in known {
        assert st.list + [item] == list + (st.added + [item]);
      }
    }
  }

  /** Every non-empty item ends up on the list when it is a known name or was already
      there, and is reported as not found otherwise; one that was already there is
      reported as existing. */
  lemma {:induction false} AddComplete(list: seq<string>, items: seq<string>, known: set<string>)
    ensures forall c :: c in NonEmpty(items) && (c in known || c in list) ==> c in AddAll(list, items, known).list
    ensures forall c :: c in NonEmpty(items) && c !in known && c !in list ==> c in AddAll(list, items, known).notFound
    ensures forall c :: c in NonEmpty(items) && c in list ==> c in AddAll(list, items, known).existing
  {
    if items != [] {
      var front := items[..|items| - 1];
      AddComplete(list, front, known);
      AddAppendsNewKnown(list, front, known);
      NonEmptyPrefix(items);
    }
  }

  /** When every item is already listed or unknown, adding changes nothing and adds
      nothing (so nothing is saved). */
  lemma {:induction false} AddStable(list: seq<string>, items: seq<string>, known: set<string>)
    requires forall c :: c in NonEmpty(items) ==> c in list || c !in known
    ensures AddAll(list, items, known).list == list
    ensures AddAll(list, items, known).added == []
  {
    if items != [] {
      NonEmptyPrefix(items);
      AddStable(list, items[..|items| - 1], known);
    }
  }

  /** Repeating the same add reports nothing added, reports every known or already
      listed name as existing, and leaves the list as it was. */
  lemma AddTwice(list: seq<string>, items: seq<string>, known: set<string>)
    ensures AddAll(AddAll(list, items, known).list, items, known).list == AddAll(list, items, known).list
    ensures AddAll(AddAll(list, items, known).list, items, known).added == []
    ensures forall c :: c in NonEmpty(items) && (c in known || c in list) ==>
              c in AddAll(AddAll(list, items, known).list, items, known).existing
  {
    AddComplete(list, items, known);
    AddComplete(AddAll(list, items, known).list, items, known);
    AddStable(AddAll(list, items, known).list, items, known);
  }

  /** `list.remove(x)`: drops the first occurrence of `x`, if any. */
  function RemoveFirst(s: seq<string>, x: string): (r: seq<string>)
    ensures x in s ==> |r| == |s| - 1
  {
    if s == [] then []
    else if s[0] == x then s[1..]
    else [s[0]] + RemoveFirst(s[1..], x)
  }

  /** Removing takes out exactly one occurrence of a present name. */
  lemma {:induction false} RemoveFirstOne(s: seq<string>, x: string)
    requires x in s
    ensures multiset(RemoveFirst(s, x)) == multiset(s) - multiset{x}
  {
    assert s == [s[0]] + s[1..];
    if s[0] != x {
      RemoveFirstOne(s[1..], x);
    }
  }

  /** The working state of `remove_from_watchlist`. */
  datatype RemoveState = RemoveState(list: seq<string>, removed: seq<string>, notFound: seq<string>)

  /** One (cleaned) item of `remove_from_watchlist`'s loop. */
  function RemoveStep(st: RemoveState, item: string): RemoveState {
    if item == "" then st
    else if item in st.list then st.(list := RemoveFirst(st.list, item), removed := st.removed + [item])
    else st.(notFound := st.notFound + [item])
  }

  function RemoveAll(list: seq<string>, items: seq<string>): (st: RemoveState)
    ensures |st.list| + |st.removed| == |list|
    ensures |st.removed| + |st.notFound| <= |items|
  {
    if items == [] then RemoveState(list, [], [])
    else RemoveStep(RemoveAll(list, items[..|items| - 1]), items[|items| - 1])
  }

  /** Removing takes out exactly one occurrence of each reported name and nothing else. */
  lemma {:induction false} RemoveTakesReported(list: seq<string>, items: seq<string>)
    ensures multiset(RemoveAll(list, items).list) + multiset(RemoveAll(list, items).removed) == multiset(list)
  {
    if items != [] {
      RemoveTakesReported(list, items[..|items| - 1]);
      var st := RemoveAll(list, items[..|items| - 1]);
      var item := items[|items| - 1];
      if item != "" && item in st.list {
        RemoveFirstOne(st.list, item);
      }
    }
  }

  /** A non-empty requested name that was not on the list is reported as not found. */
  lemma {:induction false} RemoveReportsMissing(list: seq<string>, items: seq<string>)
    ensures forall c :: c in NonEmpty(items) && c !in list ==> c in RemoveAll(list, items).notFound
  {
    if items != [] {
      var front := items[..|items| - 1];
      RemoveReportsMissing(list, front);
      RemoveTakesReported(list, front);
      NonEmptyPrefix(items);
      var st := RemoveAll(list, front);
      var item := items[|items| - 1];
      if item != "" && item !in list {
        assert multiset(list)[item] == 0;
        assert multiset(st.list)[item] == 0;
      }
    }
  }

  /** `s` without the elements of `cs`, in order. */
  function Without(s: seq<string>, cs: set<string>): seq<string> {
    if s == [] then [] else (if s[0] in cs then [] else [s[0]]) + Without(s[1..], cs)
  }

  lemma {:induction false} WithoutMembers(s: seq<string>, cs: set<string>)
    ensures forall x :: x in Without(s, cs) <==> x in s && x !in cs
  {
    if s != [] {
      WithoutMembers(s[1..], cs);
      assert s == [s[0]] + s[1..];
    }
  }

  lemma {:induction false} RemoveFirstAfter(a: seq<string>, b: seq<string>, x: string)
    requires x !in a
    ensures RemoveFirst(a + b, x) == a + RemoveFirst(b, x)
  {
    if a == [] {
      assert a + b == b;
    } else {
      var a1 := a[1..];
      var ab := a + b;
      assert ab[0] == a[0] != x && ab[1..] == a1 + b;
      RemoveFirstAfter(a1, b, x);
      assert RemoveFirst(ab, x) == [a[0]] + (a1 + RemoveFirst(b, x));
      assert a == [a[0]] + a1;
    }
  }

  lemma {:induction false} WithoutAbsent(s: seq<string>, cs: set<string>, x: string)
    requires x !in s
    ensures Without(s, cs) == Without(s, cs + {x})
  {
    if s != [] {
      WithoutAbsent(s[1..], cs, x);
    }
  }

  lemma {:induction false} RemoveFirstUnique(s: seq<string>, cs: set<string>, x: string)
    requires NoDup(s)
    ensures RemoveFirst(Without(s, cs), x) == Without(s, cs + {x})
  {
    if s != [] {
      var rest := s[1..];
      assert NoDup(rest);
      RemoveFirstUnique(rest, cs, x);
      if s[0] in cs {
        assert Without(s, cs) == Without(rest, cs);
        assert Without(s, cs + {x}) == Without(rest, cs + {x});
      } else if s[0] == x {
        assert x !in rest;
        assert Without(s, cs) == [x] + Without(rest, cs);
        assert RemoveFirst(Without(s, cs), x) == Without(rest, cs);
        assert Without(s, cs + {x}) == Without(rest, cs + {x});
        WithoutAbsent(rest, cs, x);
      } else {
        assert Without(s, cs) == [s[0]] + Without(rest, cs);
        assert Without(s, cs + {x}) == [s[0]] + Without(rest, cs + {x});
      }
    }
  }

  lemma {:induction false} WithoutNothing(s: seq<string>)
    ensures Without(s, {}) == s
  {
    if s != [] {
      WithoutNothing(s[1..]);
      assert s == [s[0]] + s[1..];
    }
  }

  lemma {:induction false} WithoutAll(s: seq<string>, cs: set<string>)
    requires forall x :: x in s ==> x in cs
    ensures Without(s, cs) == []
  {
    if s != [] {
      assert forall x :: x in s[1..] ==> x in s;
      WithoutAll(s[1..], cs);
    }
  }

  /** Removing from `list + tail` names that `list` does not hold leaves `list` and takes
      them out of a duplicate-free `tail`. */
  lemma {:induction false} RemoveFromTail(list: seq<string>, tail: seq<string>, items: seq<string>)
    requires NoDup(tail)
    requires forall c :: c in NonEmpty(items) ==> c !in list
    ensures RemoveAll(list + tail, items).list == list + Without(tail, NonEmpty(items))
  {
    if items == [] {
      assert NonEmpty(items) == {};
      WithoutNothing(tail);
    } else {
      var front := items[..|items| - 1];
      var item := items[|items| - 1];
      NonEmptyPrefix(items);
      RemoveFromTail(list, tail, front);
      var w := Without(tail, NonEmpty(front));
      WithoutMembers(tail, NonEmpty(front));
      var prev := RemoveAll(list + tail, front);
      assert RemoveAll(list + tail, items) == RemoveStep(prev, item);
      if item == "" {
        assert NonEmpty(items) == NonEmpty(front);
      } else {
        assert NonEmpty(items) == NonEmpty(front) + {item};
        assert item !in list;
        assert item in list + w <==> item in w;
        if item in w {
          RemoveFirstAfter(list, w, item);
          RemoveFirstUnique(tail, NonEmpty(front), item);
        } else if item in NonEmpty(front) {
          assert NonEmpty(items) == NonEmpty(front);
        } else {
          assert item !in tail;
          WithoutAbsent(tail, NonEmpty(front), item);
        }
      }
    }
  }

  /** Removing what was just added undoes the add, provided none of the names was on the
      list before. */
  lemma AddThenRemove(list: seq<string>, items: seq<string>, known: set<string>)
    requires forall c :: c in NonEmpty(items) ==> c !in list
    ensures RemoveAll(AddAll(list, items, known).list, items).list == list
  {
    AddAppendsNewKnown(list, items, known);
    var added := AddAll(list, items, known).added;
    RemoveFromTail(list, added, items);
    WithoutAll(added, NonEmpty(items));
    assert list + [] == list;
  }

  /** `copy_watchlist`'s merge: `sorted(set(dest) | set(source))`. */
  function MergeLists(dest: seq<string>, source: seq<string>): (r: seq<string>)
    ensures StrictlySorted(r) && NoDup(r)
    ensures forall x :: x in r <==> x in dest || x in source
  {
    var r := SortedSet(dest + source);
    forall i, j | 0 <= i < j < |r| ensures r[i] != r[j] {
      if r[i] == r[j] {
        LessIrreflexive(r[i]);
      }
    }
    r
  }

  /** Any increasing list of the same names is the merge: the result does not depend on
      the order of either input. */
  lemma MergeIsTheSortedUnion(dest: seq<string>, source: seq<string>, other: seq<string>)
    requires StrictlySorted(other)
    requires forall x :: x in other <==> x in dest || x in source
    ensures MergeLists(dest, source) == other
  {
    SortedUnique(MergeLists(dest, source), other);
  }
}

=== FILE: wrappers.dfy ===
/** The optional value used for Python's `None`-or-value returns. */
module Wrappers {
  datatype Option<+T> = None | Some(value: T)
}
